=== FILE: README.md ===
# editorjs template filter, modelled in Dafny

This project models the `editorjs` Django template filter of
`django_editorjs_fields`. The filter turns an Editor.js document into HTML:

1. **Input normalisation.** A falsy value or the string `"null"` gives `""`. A
   dict is used as it is. Anything else is handed to `json.loads`, and the value
   comes back unchanged if decoding fails.
2. **Dispatch.** The filter walks `value['blocks']` in order and lower-cases each
   block's `type`. It looks the type up in the twelve-entry `BLOCK_GENERATORS`
   registry, skips types that are not registered, and joins the rendered
   fragments.
3. **Per-type context builders.** The twelve `generate_*` functions read fields
   from `data` with `.get` and call `render_to_string`.
4. **Three string transformations:**
   - `&nbsp;` becomes a space in paragraph and header text;
   - the image class token is built from three flags;
   - the image URL is unescaped with `unquote` followed by replacing `&amp;`
     with `&`.

The modules follow that structure:

| file | module | contents |
|---|---|---|
| `results.dfy` | `Results` | `Option`, `Result`, and one `Failure` per way the filter raises |
| `values.dfy` | `Values` | JSON-like `Value`, Python truthiness, `dict.get` |
| `text.dfy` | `Text` | `str.replace`, ASCII `str.lower`, `str.join`, `str.split` |
| `percent.dfy` | `Percent` | `unquote` and `quote` over the ASCII range |
| `transforms.dfy` | `Transforms` | `&nbsp;` to space, the class token, URL unescaping |
| `generators.dfy` | `Generators` | the registry and the twelve context builders |
| `filter.dfy` | `Filter` | normalisation, the loop over the blocks, the filter |
| `properties.dfy` | `FilterProperties` | properties relating several calls of the filter |
| `scenarios.dfy` | `Scenarios` | concrete inputs and their results |

The collaborators are parameters:
- `render_to_string` is any function `Renderer = (string, Context) -> string`,
  so every property holds whatever string the templates produce;
- `json.loads` on a string is any `Decoder = string -> Option<Value>`, where
  `None` stands for `ValueError`.

A value that is neither a string nor a dict makes `json.loads` raise
`TypeError`, so the model returns it without consulting the decoder. Every
exception the filter lets through is an `Err` carrying a `Failure` that names
the situation.

**The delimiter.** `generate_delimiter` takes no parameter
(`django_editorjs_fields/templatetags/editorjs.py:47`), but the loop always
calls `generate_func(data)` (line 134). So every block whose type lower-cases to
`delimiter` raises `TypeError`, and the whole call fails with no partial output.
One might expect a document `[paragraph, unknown, delimiter, image]` to give
three fragments; the code raises at the delimiter instead, and the model
follows the code.
- `Generate(Delimiter, _)` is `Err(DelimiterArity)`.
- `Scenarios.MixedDocumentRaises` proves that such a document raises.
- `Scenarios.MixedDocumentRenders` proves that the same document without the
  delimiter renders as the paragraph followed by the image.

## Model

| member | source | states |
|---|---|---|
| Values.Truthy | django_editorjs_fields/templatetags/editorjs.py:116 | Python truthiness of a JSON value, as `not value` (line 116) and the flag tests (lines 32-37) use it |
| Values.FalsyValues | django_editorjs_fields/templatetags/editorjs.py:116 | the falsy values are exactly None, False, 0, `""`, `[]` and `{}` |
| Values.GetOr | django_editorjs_fields/templatetags/editorjs.py:52 | `d.get(key, default)`, as at line 52 (table content) and line 29 (image file) |
| Values.Get | django_editorjs_fields/templatetags/editorjs.py:129 | `d.get(key)`, as every generator and line 129 use it |
| Values.GetMissing | django_editorjs_fields/templatetags/editorjs.py:52 | `d.get(key)` is None exactly when the key is missing or maps to null, and only a missing key falls back to the default |
| Text.Replace | django_editorjs_fields/templatetags/editorjs.py:12 | `str.replace` as one left-to-right pass (lines 12, 23, 40); a replacement no longer than the pattern never lengthens the text, and one no shorter never shortens it; ReplaceAbsent and ReplaceSplit fix its result for every text |
| Text.ReplaceAbsent | django_editorjs_fields/templatetags/editorjs.py:12 | `str.replace` leaves a string that does not contain the pattern unchanged |
| Text.ReplaceSplit | django_editorjs_fields/templatetags/editorjs.py:12 | every occurrence of a pattern whose first character does not occur again in it (such as `&nbsp;` or `&amp;`) is replaced, wherever it stands: the pass over `a + pat + b` is the pass over `a`, then the replacement, then the pass over `b` |
| Text.ReplaceSkip | django_editorjs_fields/templatetags/editorjs.py:40 | the replacement pass copies text that cannot start a match and carries on after it |
| Text.ReplaceHit | django_editorjs_fields/templatetags/editorjs.py:40 | a match at the front is replaced, and the pass resumes after the match |
| Text.Lower | django_editorjs_fields/templatetags/editorjs.py:130 | `type.lower()` keeps the length and maps each character through ASCII lower-casing, position by position |
| Text.LowerResult | django_editorjs_fields/templatetags/editorjs.py:130 | a lower-cased type contains no upper-case letter; other characters stay put; `A`-`Z` move to `a`-`z` |
| Text.LowerIdempotent | django_editorjs_fields/templatetags/editorjs.py:130 | lower-casing twice is lower-casing once |
| Text.LowerFixesLowerCase | django_editorjs_fields/templatetags/editorjs.py:130 | a string without upper-case letters is its own lower-case form |
| Text.SplitJoin | django_editorjs_fields/templatetags/editorjs.py:38 | splitting a `sep.join(parts)` on `sep` gives the parts back when no part contains `sep` |
| Text.Join | django_editorjs_fields/templatetags/editorjs.py:38 | `sep.join(parts)` (lines 38 and 136); its properties are stated by the join lemmas below |
| Text.JoinEnds | django_editorjs_fields/templatetags/editorjs.py:38 | a join of no parts is `""`; otherwise it starts with the first part and ends with the last |
| Text.JoinAppend | django_editorjs_fields/templatetags/editorjs.py:136 | `''.join` of two concatenated lists is the concatenation of their joins |
| Percent.Unquote | django_editorjs_fields/templatetags/editorjs.py:39 | `unquote` never lengthens the URL and leaves a URL without `%` unchanged |
| Percent.UnquoteSkip | django_editorjs_fields/templatetags/editorjs.py:39 | text without `%` is copied, and decoding continues after it |
| Percent.UnquoteHit | django_editorjs_fields/templatetags/editorjs.py:39 | a well-formed escape at the front becomes its character, and decoding continues after its three characters, so decoded characters are never decoded again |
| Percent.UnquoteKeep | django_editorjs_fields/templatetags/editorjs.py:39 | a character that does not start a well-formed escape is kept as written |
| Percent.EscapeDecodes | django_editorjs_fields/templatetags/editorjs.py:39 | the `%XX` that `quote` writes for a character is well-formed and stands for that character |
| Percent.UnquoteQuoteChar | django_editorjs_fields/templatetags/editorjs.py:39 | decoding undoes the encoding of one character at the front |
| Percent.UnquoteQuote | django_editorjs_fields/templatetags/editorjs.py:39 | `unquote(quote(s, safe)) == s` whenever `%` is not in `safe` |
| Transforms.NoNbspAfterReplace | django_editorjs_fields/templatetags/editorjs.py:12 | no `&nbsp;` survives the replacement pass, and the spaces it writes never form a new one |
| Transforms.NbspToSpace | django_editorjs_fields/templatetags/editorjs.py:12 | the text handed to the paragraph template contains no `&nbsp;`, and text that had none is unchanged; NbspBecomesSpace states what each `&nbsp;` becomes |
| Transforms.NbspToSpaceIdempotent | django_editorjs_fields/templatetags/editorjs.py:23 | replacing `&nbsp;` twice is replacing it once |
| Transforms.NbspBecomesSpace | django_editorjs_fields/templatetags/editorjs.py:12 | each `&nbsp;` becomes exactly one space and the text on either side goes through the same replacement; with NbspToSpace's unchanged-text clause this fixes the result for every text |
| Transforms.ClassList | django_editorjs_fields/templatetags/editorjs.py:31-37 | the list holds only flag names; each name is present exactly when its flag is truthy; the names appear in the order stretched, withBorder, withBackground without repeats |
| Transforms.ClassToken | django_editorjs_fields/templatetags/editorjs.py:31-38 | the class token is `""` exactly when no flag is truthy; otherwise splitting it on spaces gives back the class list |
| Transforms.JoinFlags | django_editorjs_fields/templatetags/editorjs.py:38 | joining flag names with spaces gives `""` only for no names, and splits back into the names |
| Transforms.UnescapeUrl | django_editorjs_fields/templatetags/editorjs.py:39-40 | `unquote` then one `&amp;` pass never lengthens the URL, and a URL with no `%` and no `&amp;` comes back unchanged |
| Transforms.UnescapeEscapeAmp | django_editorjs_fields/templatetags/editorjs.py:40 | replacing `&amp;` by `&` undoes escaping every `&` as `&amp;` |
| Transforms.UnescapeUrlRoundTrip | django_editorjs_fields/templatetags/editorjs.py:39-40 | a URL escaped once with `&amp;` and then percent-encoded once comes back exactly |
| Generators.Lookup | django_editorjs_fields/templatetags/editorjs.py:98-111 | a registry hit returns the kind registered under exactly that name |
| Generators.LookupName | django_editorjs_fields/templatetags/editorjs.py:98-111 | every one of the twelve kinds is found under its key, and every key is already lower-case |
| Generators.Name | django_editorjs_fields/templatetags/editorjs.py:98-111 | each of the twelve registry keys is a non-empty word of lower-case letters |
| Generators.NamesDistinct | django_editorjs_fields/templatetags/editorjs.py:98-111 | no two kinds are registered under the same key |
| Generators.Template | django_editorjs_fields/templatetags/editorjs.py:13-95 | the twelve template paths exactly as the generators write them (lines 13, 19, 25, 42, 48, 53, 59, 67, 74, 79, 87, 95); each one is `django-editorjs-fields/<key>.html`, where `<key>` is its kind's registry key |
| Generators.TemplatesDistinct | django_editorjs_fields/templatetags/editorjs.py:11-95 | distinct kinds render distinct templates |
| Generators.GenerateParagraph | django_editorjs_fields/templatetags/editorjs.py:11-13 | data without `.get` raises; so does text that is not a string; a dict with a string `text` renders `paragraph.html` with exactly `{'text': text.replace('&nbsp;', ' ')}`, which holds no `&nbsp;`, and text without `&nbsp;` passes unchanged |
| Generators.GenerateHeader | django_editorjs_fields/templatetags/editorjs.py:22-25 | as for the paragraph: data without `.get` or a non-string `text` raises; a dict with a string `text` renders `header.html` with exactly the replaced text and `level` as `data.get` returns it |
| Generators.GenerateImage | django_editorjs_fields/templatetags/editorjs.py:28-44 | `file` that is not a dict raises; a missing `file` or a `url` that is not a string raises at `unquote`; success happens exactly when `file.url` is a string; the context is `url` (unescaped), `caption` (as read), and `classes`, the space-joined class token of the three flags (empty exactly when no flag is truthy) |
| Generators.GenerateTable | django_editorjs_fields/templatetags/editorjs.py:51-53 | `content` defaults to `[]` only when the key is absent; an explicit value, null included, is passed on |
| Generators.Generate | django_editorjs_fields/templatetags/editorjs.py:47-48 | calling the delimiter generator with `data` always raises; every other generator raises on data without `.get`; a success renders the kind's own template |
| Generators.VerbatimGenerators | django_editorjs_fields/templatetags/editorjs.py:16-95 | link tool (lines 16-19), warning, quote, code, raw, embed and list (lines 56-95) render their own template with exactly their fields, each as `data.get` returns it, and raise only on data without `.get` |
| Filter.Dispatch | django_editorjs_fields/templatetags/editorjs.py:129-134 | a block without `.get` raises; so does a type that is not a string; an unregistered type appends nothing; a fragment is appended only for a registered type; a delimiter raises |
| Filter.DispatchRegistered | django_editorjs_fields/templatetags/editorjs.py:129-134 | a block whose lower-cased type is registered renders what its generator builds from the block's `data`, or raises what the generator raises |
| Filter.Kept | django_editorjs_fields/templatetags/editorjs.py:129-133 | the test `if generate_func:`: a dict block whose string type, lower-cased, is registered |
| Filter.KeptIsRegistered | django_editorjs_fields/templatetags/editorjs.py:129-133 | a block reaches a generator exactly when it is a dict whose type is a string that lower-cases to one of the twelve registry keys |
| Filter.KeptItems | django_editorjs_fields/templatetags/editorjs.py:129-133 | the blocks that reach a generator are registered blocks of the document; KeptItemsComplete, KeptItemsAppend and KeptItemsSingle fix it as all of them, in document order |
| Filter.KeptItemsComplete | django_editorjs_fields/templatetags/editorjs.py:129-133 | every registered block of the document is among the blocks that reach a generator |
| Filter.KeptItemsAppend | django_editorjs_fields/templatetags/editorjs.py:129-133 | keeping the registered blocks of `a + b` keeps those of `a`, then those of `b`, so document order is preserved |
| Filter.KeptItemsSingle | django_editorjs_fields/templatetags/editorjs.py:129-133 | a one-block document keeps its block exactly when the block is registered |
| Filter.Collect | django_editorjs_fields/templatetags/editorjs.py:127-134 | the loop completes exactly when no turn raises |
| Filter.CollectFollowsProducing | django_editorjs_fields/templatetags/editorjs.py:127-134 | a completed loop holds, at each position, the fragment of the block at that position among those that produce one |
| Filter.CollectFirstFailure | django_editorjs_fields/templatetags/editorjs.py:127-134 | a failed loop raises what the first raising block raises, and every earlier block went through |
| Filter.CollectAppend | django_editorjs_fields/templatetags/editorjs.py:127-134 | the loop over `a + b` is the loop over `a` followed by the loop over `b` |
| Filter.Fragments | django_editorjs_fields/templatetags/editorjs.py:127-134 | `html_list` is built exactly when no block raises |
| Filter.ProducingIsKept | django_editorjs_fields/templatetags/editorjs.py:132-134 | when no block raises, the blocks that append a fragment are exactly the registered ones |
| Filter.FragmentsFollowKept | django_editorjs_fields/templatetags/editorjs.py:127-134 | `html_list` has one fragment per registered block, and the j-th fragment renders the j-th registered block |
| Filter.FragmentsSingle | django_editorjs_fields/templatetags/editorjs.py:129-134 | the loop over one block appends what that block dispatches to |
| Filter.FragmentsFirstFailure | django_editorjs_fields/templatetags/editorjs.py:127-134 | a failing loop fails as its first raising block does |
| Filter.FragmentsAppend | django_editorjs_fields/templatetags/editorjs.py:127-134 | fragments of concatenated block lists concatenate, and a failure in the first list wins |
| Filter.Items | django_editorjs_fields/templatetags/editorjs.py:128 | iterating a string `blocks` yields one item per character, none of which is a dict |
| Filter.BlockList | django_editorjs_fields/templatetags/editorjs.py:128 | `value['blocks']` raises on a value that is not a dict or has no `blocks`; a list gives its items |
| Filter.Editorjs | django_editorjs_fields/templatetags/editorjs.py:115-136 | falsy input or `"null"` gives `""`; a non-dict that does not decode comes back unchanged; a failure needs a truthy dict or decoded string; a plain return is either `""` or the input |
| FilterProperties.DictNeverDecoded | django_editorjs_fields/templatetags/editorjs.py:119-121 | dict input gives the same result whatever the decoder does |
| FilterProperties.DecodedStringActsAsDict | django_editorjs_fields/templatetags/editorjs.py:119-128 | a string that decodes to a non-empty dict renders as that dict does |
| FilterProperties.DecodedEmptyDictRaises | django_editorjs_fields/templatetags/editorjs.py:116-128 | a string decoding to `{}` raises at `value['blocks']`, while `{}` itself gives `""`: the emptiness test runs before decoding only |
| FilterProperties.BlocksDecideOutput | django_editorjs_fields/templatetags/editorjs.py:127-136 | a dict with other keys besides a `blocks` list (such as `time` and `version`) renders exactly as the dict holding only those blocks, so every property stated for such documents holds for it |
| FilterProperties.DocumentOutput | django_editorjs_fields/templatetags/editorjs.py:127-136 | any dict whose `blocks` is a list renders exactly when no block raises, as the join of its fragments; otherwise it raises what its first raising block raises |
| FilterProperties.OutputConcatenates | django_editorjs_fields/templatetags/editorjs.py:127-136 | the output for blocks `a + b` is the output for `a` followed by that for `b`, and a failure in `a` wins |
| FilterProperties.UnknownTypeContributesNothing | django_editorjs_fields/templatetags/editorjs.py:132-133 | inserting a block with an unregistered string type anywhere leaves the result unchanged |
| FilterProperties.DelimiterAbortsDocument | django_editorjs_fields/templatetags/editorjs.py:127-136 | a delimiter block in any letter case, after blocks that all go through, makes the whole call raise |
| FilterProperties.DispatchIgnoresCase | django_editorjs_fields/templatetags/editorjs.py:129-132 | two types that lower-case alike dispatch alike |
| FilterProperties.MissingFieldsRaise | django_editorjs_fields/templatetags/editorjs.py:128-134 | a non-empty document without `blocks` raises; so does a block without `type`, and a registered block without `data` |
| Scenarios.EmptyInputs | django_editorjs_fields/templatetags/editorjs.py:116-117 | None, `""`, `"null"` and `{}` give `""` |
| Scenarios.MalformedInputReturned | django_editorjs_fields/templatetags/editorjs.py:119-125 | undecodable text, an int and a list come back unchanged |
| Scenarios.NbspExample | django_editorjs_fields/templatetags/editorjs.py:12 | `"Hello&nbsp;World"` becomes `"Hello World"` |
| Scenarios.ParagraphExample | django_editorjs_fields/templatetags/editorjs.py:11-13 | the paragraph template receives `"Hello World"` for `"Hello&nbsp;World"` |
| Scenarios.UrlExample | django_editorjs_fields/templatetags/editorjs.py:39-40 | `"https://x.com/a%20b?x=1&amp;y=2"` becomes `"https://x.com/a b?x=1&y=2"` |
| Scenarios.DoubleEscapedAmpExample | django_editorjs_fields/templatetags/editorjs.py:40 | `"&amp;amp;"` becomes `"&amp;"`: only one layer is removed |
| Scenarios.EncodedAmpExample | django_editorjs_fields/templatetags/editorjs.py:39-40 | `"%26amp;"` decodes to `"&amp;"`, which then becomes `"&"`, because percent-decoding comes first |
| Scenarios.UnquoteExamples | django_editorjs_fields/templatetags/editorjs.py:39 | `"%2541"` decodes to `"%41"` and is not decoded again; `"%zz%4"` stays as written |
| Scenarios.ClassTokenExamples | django_editorjs_fields/templatetags/editorjs.py:31-38 | flags true, true, false give `"stretched withBorder"`; falsy flags give `""` |
| Scenarios.ParagraphTypeCaseInsensitive | django_editorjs_fields/templatetags/editorjs.py:130-132 | a block typed `"PARAGRAPH"` dispatches exactly like one typed `"paragraph"` |
| Scenarios.ParagraphBlockRenders | django_editorjs_fields/templatetags/editorjs.py:11-13 | a block whose type lower-cases to `paragraph` renders the paragraph template with its text, `&nbsp;` replaced |
| Scenarios.ImageBlockRenders | django_editorjs_fields/templatetags/editorjs.py:28-44 | a block whose type lower-cases to `image` renders the image template with the context the image generator builds |
| Scenarios.MixedDocumentRaises | django_editorjs_fields/templatetags/editorjs.py:127-136 | `[paragraph, unknown, delimiter, image]`, with types in any letter case, raises at the delimiter |
| Scenarios.MixedDocumentRenders | django_editorjs_fields/templatetags/editorjs.py:127-136 | `[paragraph, unknown, image]` renders as the paragraph's fragment followed by the image's |
| Scenarios.SingleBlockDocument | django_editorjs_fields/templatetags/editorjs.py:136 | a document of one rendering block is that block's fragment |

## Left out

- `json.loads` (line 121) is a parameter `Decoder`; the JSON parser is not modelled.
- `render_to_string` and the template files are a parameter `Renderer`. Any escaping the templates do is outside the model.
- `render_to_string` is assumed to return. A template that raises (a missing template file, a failing tag) would abort the call at line 134; the model has no such case, so "renders exactly when no block raises" holds only for templates that return.
- `mark_safe` (line 136) is a trust annotation. The model records it as the `Safe` constructor around the joined string.
- Filter registration (`register.filter`, lines 8 and 114) is framework plumbing.
- Byte-string input is not modelled: `json.loads` accepts bytes, and `Value` has no bytes case.
- Floats in JSON are not modelled, so neither is their truthiness.
- Dict iteration order is not modelled. A non-empty dict under `blocks` fails at its first key whichever key comes first, so the result does not depend on it.
- `Text.Lower`: does not model full Unicode `str.lower`; only the ASCII letters are lower-cased. This changes dispatch for non-ASCII types: Python lower-cases U+212A KELVIN SIGN to ASCII `k`, so a type `"LIN\u212aTOOL"` reaches `generate_link` in the source, while the model skips that block as unregistered.
- `Percent.Unquote`: does not model escapes `%80`-`%FF`, because `unquote` decodes them as UTF-8 with replacement characters. The model leaves them as written; escapes of ASCII characters and malformed escapes are modelled as `unquote` treats them.
- `Percent.Quote`: is ASCII-only; it only serves as the partner that `unquote` inverts.
- `Text.Replace`: does not cover the empty pattern, which `str.replace` treats specially, because the filter only replaces the non-empty literals `&nbsp;` and `&amp;`.
- The seven verbatim generators (link, warning, quote, code, raw, embed, list) carry no contract of their own: `Generators.VerbatimGenerators` states what all of them do.
- The filter on a literal unknown type such as `"unknown_type_xyz"` is not worked out as a scenario. `FilterProperties.UnknownTypeContributesNothing` states it for every type whose lower-case form is not a registry key.

=== FILE: filter.dfy ===
/** The `editorjs` template filter: input normalisation, dispatch of each
    block to its generator, and concatenation of the rendered fragments. */
module Filter {
  import opened Values
  import opened Results
  import opened Text
  import opened Generators

  /** `render_to_string`: the template engine is outside this model, so the
      filter is stated for every function of template name and context. */
  type Renderer = (string, Context) -> string

  /** `json.loads` applied to a string: the decoded value, or None where it
      raises ValueError. The JSON parser is outside this model. */
  type Decoder = string -> Option<Value>

  /** What the filter returns: joined markup (passed through `mark_safe`), or a
      plain value returned as it is. */
  datatype Output = Safe(html: string) | Returned(v: Value)

  /** The block's `type`, read with `item.get('type')`. */
  function TypeOf(item: Value): Value
    requires item.Object?
  {
    Get(item.fields, "type")
  }

  /** A block that reaches a generator: a dict whose type is a string that is
      registered once lower-cased. */
  predicate Kept(item: Value) {
    && item.Object?
    && TypeOf(item).Str?
    && Lookup(Lower(TypeOf(item).s)).Some?
  }

  /** A block is kept exactly when it is a dict whose type, lower-cased, is
      one of the twelve registry keys. */
  lemma KeptIsRegistered(item: Value)
    ensures Kept(item) <==>
              && item.Object?
              && TypeOf(item).Str?
              && exists k :: Name(k) == Lower(TypeOf(item).s)
  {
    if item.Object? && TypeOf(item).Str? {
      var ty := Lower(TypeOf(item).s);
      if exists k :: Name(k) == ty {
        var k :| Name(k) == ty;
        LookupName(k);
      }
    }
  }

  /** One turn of the loop over the blocks: the fragment it appends to
      `html_list`, None when the type is not registered, or the failure it
      raises. */
  function Dispatch(item: Value, render: Renderer): (r: Result<Option<string>>)
    ensures !item.Object? ==> r == Err(BlockWithoutGet)
    ensures item.Object? && !TypeOf(item).Str? ==> r == Err(TypeNotString)
    ensures r == Ok(None) <==> item.Object? && TypeOf(item).Str? && !Kept(item)
    ensures r.Ok? && r.value.Some? ==> Kept(item)
    ensures Kept(item) && Lookup(Lower(TypeOf(item).s)) == Some(Delimiter) ==>
              r == Err(DelimiterArity)
  {
    if !item.Object? then Err(BlockWithoutGet)
    else
      var ty := Get(item.fields, "type");
      var data := Get(item.fields, "data");
      if !ty.Str? then Err(TypeNotString)
      else
        match Lookup(Lower(ty.s))
        case None => Ok(None)
        case Some(k) =>
          var call :- Generate(k, data);
          Ok(Some(render(call.template, call.context)))
  }

  /** A block whose type is registered for `k` renders what the generator for
      `k` builds from its `data`, or raises what that generator raises. */
  lemma DispatchRegistered(item: Value, k: Kind, render: Renderer)
    requires item.Object? && TypeOf(item).Str? && Lookup(Lower(TypeOf(item).s)) == Some(k)
    ensures var g := Generate(k, Get(item.fields, "data"));
            Dispatch(item, render) ==
              if g.Err? then Err(g.failure) else Ok(Some(render(g.value.template, g.value.context)))
  {
  }

  /** The blocks that reach a generator, in document order. */
  function KeptItems(items: seq<Value>): (kept: seq<Value>)
    ensures |kept| <= |items|
    ensures forall j :: 0 <= j < |kept| ==> Kept(kept[j]) && kept[j] in items
  {
    if items == [] then []
    else (if Kept(items[0]) then [items[0]] else []) + KeptItems(items[1..])
  }

  /** Every kept block of the document is among the kept items. */
  lemma {:induction false} KeptItemsComplete(items: seq<Value>)
    ensures forall i :: 0 <= i < |items| && Kept(items[i]) ==> items[i] in KeptItems(items)
  {
    if items != [] {
      KeptItemsComplete(items[1..]);
      forall i | 0 <= i < |items| && Kept(items[i])
        ensures items[i] in KeptItems(items)
      {
        if i > 0 {
          assert items[i] == items[1..][i - 1];
        }
      }
    }
  }

  /** Keeping distributes over concatenation, so the kept items keep their
      document order; with the one-block case this fixes KeptItems. */
  lemma {:induction false} KeptItemsAppend(a: seq<Value>, b: seq<Value>)
    ensures KeptItems(a + b) == KeptItems(a) + KeptItems(b)
  {
    if a == [] {
      assert a + b == b;
    } else {
      var head := KeptItemsFirst(a, b);
      KeptItemsAppend(a[1..], b);
      AppendAssoc(head, KeptItems(a[1..]), KeptItems(b));
    }
  }

  /** One step of KeptItemsAppend: the first block of `a` is kept or dropped
      alike in `a` and in `a + b`. */
  lemma KeptItemsFirst(a: seq<Value>, b: seq<Value>) returns (head: seq<Value>)
    requires a != []
    ensures KeptItems(a) == head + KeptItems(a[1..])
    ensures KeptItems(a + b) == head + KeptItems(a[1..] + b)
  {
    head := if Kept(a[0]) then [a[0]] else [];
    assert (a + b)[0] == a[0];
    assert (a + b)[1..] == a[1..] + b;
  }

  lemma AppendAssoc(x: seq<Value>, y: seq<Value>, z: seq<Value>)
    ensures x + (y + z) == (x + y) + z
  {
  }

  /** A one-block document keeps its block exactly when the block is kept. */
  lemma KeptItemsSingle(item: Value)
    ensures KeptItems([item]) == if Kept(item) then [item] else []
  {
    assert [item][1..] == [];
  }


  /** One turn of a loop: a fragment, nothing, or a failure. */
  type Step = Value -> Result<Option<string>>

  /** The loop `for item in items: html_list.append(...)` for any step: it
      stops at the first failure and otherwise collects every fragment. */
  function Collect(items: seq<Value>, step: Step): (r: Result<seq<string>>)
    ensures r.Ok? <==> forall i :: 0 <= i < |items| ==> step(items[i]).Ok?
  {
    if items == [] then Ok([])
    else
      var head :- step(items[0]);
      var tail :- Collect(items[1..], step);
      Ok((if head.Some? then [head.value] else []) + tail)
  }

  /** The items a step turns into a fragment, in order. */
  function Producing(items: seq<Value>, step: Step): seq<Value> {
    if items == [] then []
    else
      (if step(items[0]).Ok? && step(items[0]).value.Some? then [items[0]] else [])
      + Producing(items[1..], step)
  }

  /** A successful loop holds, at each position, the fragment of the item at
      the same position among those that produce one. */
  lemma {:induction false} CollectFollowsProducing(items: seq<Value>, step: Step)
    ensures var r := Collect(items, step);
            r.Ok? ==> && |r.value| == |Producing(items, step)|
                      && forall j :: 0 <= j < |r.value| ==>
                           step(Producing(items, step)[j]) == Ok(Some(r.value[j]))
  {
    if items != [] && Collect(items, step).Ok? {
      CollectFollowsProducing(items[1..], step);
    }
  }

  /** A failing loop fails with the failure of the first item that raises;
      no later item is looked at. */
  lemma {:induction false} CollectFirstFailure(items: seq<Value>, step: Step)
    ensures var r := Collect(items, step);
            r.Err? ==> exists i :: && 0 <= i < |items|
                                   && step(items[i]) == Err(r.failure)
                                   && forall j :: 0 <= j < i ==> step(items[j]).Ok?
  {
    var r := Collect(items, step);
    if items != [] && r.Err? && step(items[0]).Ok? {
      CollectFirstFailure(items[1..], step);
      var i :| && 0 <= i < |items[1..]|
               && step(items[1..][i]) == Err(r.failure)
               && forall j :: 0 <= j < i ==> step(items[1..][j]).Ok?;
      assert step(items[i + 1]) == Err(r.failure);
      forall j | 0 <= j < i + 1
        ensures step(items[j]).Ok?
      {
        if j > 0 {
          assert items[j] == items[1..][j - 1];
        }
      }
    }
  }

  /** Running one loop after another: the first failure wins, otherwise the
      fragment lists concatenate. */
  function AndThen(ra: Result<seq<string>>, rb: Result<seq<string>>): Result<seq<string>> {
    if ra.Err? then ra else if rb.Err? then rb else Ok(ra.value + rb.value)
  }

  /** The loop over two runs of items is the loop over the first run, then
      the loop over the second. */
  lemma {:induction false} CollectAppend(a: seq<Value>, b: seq<Value>, step: Step)
    ensures Collect(a + b, step) == AndThen(Collect(a, step), Collect(b, step))
  {
    if a == [] {
      assert a + b == b;
      var rb := Collect(b, step);
      if rb.Ok? {
        assert [] + rb.value == rb.value;
      }
    } else {
      var ab := a + b;
      assert ab[0] == a[0];
      assert ab[1..] == a[1..] + b;
      CollectAppend(a[1..], b, step);
      var head := step(a[0]);
      var ra := Collect(a[1..], step);
      var rb := Collect(b, step);
      if head.Ok? && ra.Ok? && rb.Ok? {
        var ha := if head.value.Some? then [head.value.value] else [];
        assert ha + (ra.value + rb.value) == (ha + ra.value) + rb.value;
      }
    }
  }

  /** `html_list` after the loop over the document's blocks. */
  function Fragments(items: seq<Value>, render: Renderer): (r: Result<seq<string>>)
    ensures r.Ok? <==> forall i :: 0 <= i < |items| ==> Dispatch(items[i], render).Ok?
  {
    Collect(items, (item: Value) => Dispatch(item, render))
  }

  /** When no block raises, the blocks that produce a fragment are exactly the
      kept ones. */
  lemma {:induction false} ProducingIsKept(items: seq<Value>, render: Renderer)
    requires forall i :: 0 <= i < |items| ==> Dispatch(items[i], render).Ok?
    ensures Producing(items, (item: Value) => Dispatch(item, render)) == KeptItems(items)
  {
    if items != [] {
      var d := Dispatch(items[0], render);
      assert d.Ok?;
      assert d.value.Some? <==> Kept(items[0]);
      ProducingIsKept(items[1..], render);
    }
  }

  /** A successful loop holds one fragment per kept block, in document order:
      the j-th fragment is the rendering of the j-th kept block. */
  lemma FragmentsFollowKept(items: seq<Value>, render: Renderer)
    ensures var r := Fragments(items, render);
            r.Ok? ==> && |r.value| == |KeptItems(items)|
                      && forall j :: 0 <= j < |r.value| ==>
                           Dispatch(KeptItems(items)[j], render) == Ok(Some(r.value[j]))
  {
    var step := (item: Value) => Dispatch(item, render);
    CollectFollowsProducing(items, step);
    if Fragments(items, render).Ok? {
      ProducingIsKept(items, render);
    }
  }

  lemma CollectSingle(item: Value, step: Step)
    ensures var d := step(item);
            Collect([item], step) ==
              if d.Err? then Err(d.failure)
              else if d.value.Some? then Ok([d.value.value])
              else Ok([])
  {
    var d := step(item);
    assert [item][0] == item;
    assert [item][1..] == [];
    assert Collect([item][1..], step) == Ok([]);
    if d.Err? {
      assert Collect([item], step) == d.PropagateFailure();
    } else if d.value.Some? {
      assert Collect([item], step) == Ok([d.value.value] + []);
      assert [d.value.value] + [] == [d.value.value];
    } else {
      var none: seq<string> := [];
      assert Collect([item], step) == Ok(none + none);
      assert none + none == none;
    }
  }

  /** The loop over a single block appends what that block dispatches to. */
  lemma FragmentsSingle(item: Value, render: Renderer)
    ensures var d := Dispatch(item, render);
            Fragments([item], render) ==
              if d.Err? then Err(d.failure)
              else if d.value.Some? then Ok([d.value.value])
              else Ok([])
  {
    CollectSingle(item, (item: Value) => Dispatch(item, render));
  }

  /** A failing loop fails as the first block that raises does. */
  lemma FragmentsFirstFailure(items: seq<Value>, render: Renderer)
    ensures var r := Fragments(items, render);
            r.Err? ==> exists i :: && 0 <= i < |items|
                                   && Dispatch(items[i], render) == Err(r.failure)
                                   && forall j :: 0 <= j < i ==> Dispatch(items[j], render).Ok?
  {
    CollectFirstFailure(items, (item: Value) => Dispatch(item, render));
  }

  /** The loop over two runs of blocks is the loop over the first run, then
      the loop over the second: fragments concatenate, and a failure in the
      first run wins. */
  lemma FragmentsAppend(a: seq<Value>, b: seq<Value>, render: Renderer)
    ensures Fragments(a + b, render) == AndThen(Fragments(a, render), Fragments(b, render))
  {
    CollectAppend(a, b, (item: Value) => Dispatch(item, render));
  }

  /** The items `for item in blocks` visits. A string yields its characters as
      one-character strings. A dict yields its keys, which are strings, so a
      non-empty dict fails at the first `item.get` whichever key comes first. */
  function Items(blocks: Value): (r: Result<seq<Value>>)
    ensures blocks.Str? ==> r.Ok? && |r.value| == |blocks.s|
    ensures blocks.Str? ==> forall i :: 0 <= i < |r.value| ==> !r.value[i].Object?
  {
    match blocks
    case Array(xs) => Ok(xs)
    case Str(s) => Ok(seq(|s|, i requires 0 <= i < |s| => Str([s[i]])))
    case Object(m) => if m == map[] then Ok([]) else Err(BlockWithoutGet)
    case _ => Err(BlocksNotIterable)
  }

  /** `value['blocks']`, ready to iterate. */
  function BlockList(doc: Value): (r: Result<seq<Value>>)
    ensures !doc.Object? ==> r == Err(NotSubscriptable)
    ensures doc.Object? && "blocks" !in doc.fields ==> r == Err(MissingBlocks)
    ensures doc.Object? && "blocks" in doc.fields && doc.fields["blocks"].Array? ==>
              r == Ok(doc.fields["blocks"].items)
  {
    if !doc.Object? then Err(NotSubscriptable)
    else if "blocks" !in doc.fields then Err(MissingBlocks)
    else Items(doc.fields["blocks"])
  }

  /** The `editorjs` filter. */
  function Editorjs(value: Value, decode: Decoder, render: Renderer): (r: Result<Output>)
    ensures !Truthy(value) || value == Str("null") ==> r == Ok(Returned(Str("")))
    ensures (&& Truthy(value) && value != Str("null") && !value.Object?
             && (!value.Str? || decode(value.s).None?)) ==> r == Ok(Returned(value))
    ensures r.Err? ==> Truthy(value) && (value.Object? || (value.Str? && decode(value.s).Some?))
    ensures r.Ok? && r.value.Returned? ==> r.value.v == value || r.value.v == Str("")
  {
    if !Truthy(value) || value == Str("null") then Ok(Returned(Str("")))
    else
      var doc := if value.Object? then Some(value) else if value.Str? then decode(value.s) else None;
      match doc
      case None => Ok(Returned(value))
      case Some(d) =>
        var items :- BlockList(d);
        var html := Fragments(items, render);
        if html.Err? then Err(html.failure) else Ok(Safe(Join(html.value, "")))
  }
}

=== FILE: generators.dfy ===
/** The twelve block kinds, the registry that maps a lower-case type name to
    its generator, and the generators: each turns a block's `data` into the
    template name and context it is rendered with. */
module Generators {
  import opened Values
  import opened Results
  import opened Text
  import opened Transforms

  datatype Kind =
    | Paragraph | Header | List | Image | Delimiter | Warning
    | Table | Code | Raw | Embed | Quote | LinkTool

  /** The key a kind is registered under in `BLOCK_GENERATORS`: a non-empty
      word of lower-case letters. */
  function Name(k: Kind): (r: string)
    ensures r != []
    ensures forall i :: 0 <= i < |r| ==> 'a' <= r[i] <= 'z'
  {
    match k
    case Paragraph => "paragraph"
    case Header => "header"
    case List => "list"
    case Image => "image"
    case Delimiter => "delimiter"
    case Warning => "warning"
    case Table => "table"
    case Code => "code"
    case Raw => "raw"
    case Embed => "embed"
    case Quote => "quote"
    case LinkTool => "linktool"
  }

  /** `BLOCK_GENERATORS.get(name)`: finds a kind only under its own key. */
  function Lookup(name: string): (r: Option<Kind>)
    ensures r.Some? ==> Name(r.value) == name
  {
    if name == "paragraph" then Some(Paragraph)
    else if name == "header" then Some(Header)
    else if name == "list" then Some(List)
    else if name == "image" then Some(Image)
    else if name == "delimiter" then Some(Delimiter)
    else if name == "warning" then Some(Warning)
    else if name == "table" then Some(Table)
    else if name == "code" then Some(Code)
    else if name == "raw" then Some(Raw)
    else if name == "embed" then Some(Embed)
    else if name == "quote" then Some(Quote)
    else if name == "linktool" then Some(LinkTool)
    else None
  }

  /** Every kind is found under its key, and the keys are lower-case, so a
      type written in any case reaches its kind once lower-cased. */
  lemma LookupName(k: Kind)
    ensures Lookup(Name(k)) == Some(k)
    ensures Lower(Name(k)) == Name(k)
  {
    LowerFixesLowerCase(Name(k));
  }

  /** No two kinds share a key. */
  lemma NamesDistinct(j: Kind, k: Kind)
    ensures Name(j) == Name(k) <==> j == k
  {
    LookupName(j);
    LookupName(k);
  }

  /** The directory every template lives in. */
  const TemplateDir: string := "django-editorjs-fields/"

  /** The template each generator renders, as each generator names it; every
      one is the kind's registry key, inside the template directory, with the
      `.html` extension. */
  function Template(k: Kind): (r: string)
    ensures r == TemplateDir + Name(k) + ".html"
    ensures |r| == |TemplateDir| + |Name(k)| + 5
    ensures r[..|TemplateDir|] == TemplateDir
    ensures r[|TemplateDir|..|r| - 5] == Name(k)
    ensures r[|r| - 5..] == ".html"
  {
    KeyHtmlShape(Name(k));
    match k
    case Paragraph => ParagraphPath(); "django-editorjs-fields/paragraph.html"
    case Header => HeaderPath(); "django-editorjs-fields/header.html"
    case List => ListPath(); "django-editorjs-fields/list.html"
    case Image => ImagePath(); "django-editorjs-fields/image.html"
    case Delimiter => DelimiterPath(); "django-editorjs-fields/delimiter.html"
    case Warning => WarningPath(); "django-editorjs-fields/warning.html"
    case Table => TablePath(); "django-editorjs-fields/table.html"
    case Code => CodePath(); "django-editorjs-fields/code.html"
    case Raw => RawPath(); "django-editorjs-fields/raw.html"
    case Embed => EmbedPath(); "django-editorjs-fields/embed.html"
    case Quote => QuotePath(); "django-editorjs-fields/quote.html"
    case LinkTool => LinkToolPath(); "django-editorjs-fields/linktool.html"
  }

  /** Where the key and the extension sit in `TemplateDir + name + ".html"`. */
  lemma KeyHtmlShape(name: string)
    ensures var r := TemplateDir + name + ".html";
            && |r| == |TemplateDir| + |name| + 5
            && r[..|TemplateDir|] == TemplateDir
            && r[|TemplateDir|..|r| - 5] == name
            && r[|r| - 5..] == ".html"
  {
  }

  /** Each template path written in the generators is its kind's registry key
      inside the template directory with the `.html` extension; one small
      lemma per path keeps each comparison of literals separate. */
  lemma ParagraphPath()
    ensures "django-editorjs-fields/paragraph.html" == TemplateDir + Name(Paragraph) + ".html"
  {
  }
  lemma HeaderPath()
    ensures "django-editorjs-fields/header.html" == TemplateDir + Name(Header) + ".html"
  {
  }
  lemma ListPath()
    ensures "django-editorjs-fields/list.html" == TemplateDir + Name(List) + ".html"
  {
  }
  lemma ImagePath()
    ensures "django-editorjs-fields/image.html" == TemplateDir + Name(Image) + ".html"
  {
  }
  lemma DelimiterPath()
    ensures "django-editorjs-fields/delimiter.html" == TemplateDir + Name(Delimiter) + ".html"
  {
  }
  lemma WarningPath()
    ensures "django-editorjs-fields/warning.html" == TemplateDir + Name(Warning) + ".html"
  {
  }
  lemma TablePath()
    ensures "django-editorjs-fields/table.html" == TemplateDir + Name(Table) + ".html"
  {
  }
  lemma CodePath()
    ensures "django-editorjs-fields/code.html" == TemplateDir + Name(Code) + ".html"
  {
  }
  lemma RawPath()
    ensures "django-editorjs-fields/raw.html" == TemplateDir + Name(Raw) + ".html"
  {
  }
  lemma EmbedPath()
    ensures "django-editorjs-fields/embed.html" == TemplateDir + Name(Embed) + ".html"
  {
  }
  lemma QuotePath()
    ensures "django-editorjs-fields/quote.html" == TemplateDir + Name(Quote) + ".html"
  {
  }
  lemma LinkToolPath()
    ensures "django-editorjs-fields/linktool.html" == TemplateDir + Name(LinkTool) + ".html"
  {
  }

  /** Each kind renders a template of its own. */
  lemma TemplatesDistinct(j: Kind, k: Kind)
    ensures Template(j) == Template(k) <==> j == k
  {
    NamesDistinct(j, k);
    if Template(j) == Template(k) {
      assert Name(j) == Template(j)[|TemplateDir|..|Template(j)| - 5];
    }
  }

  /** One `render_to_string(template, context)` call. */
  datatype Call = Call(template: string, context: Context)

  function GenerateParagraph(data: Value): (r: Result<Call>)
    ensures !data.Object? ==> r == Err(DataWithoutGet)
    ensures data.Object? && !Get(data.fields, "text").Str? ==> r == Err(TextNotString)
    ensures r.Ok? ==> && r.value.template == Template(Paragraph)
                      && r.value.context.Keys == {"text"}
                      && r.value.context["text"].Str?
                      && !Occurs(r.value.context["text"].s, Nbsp)
    ensures r.Ok? && !Occurs(data.fields["text"].s, Nbsp) ==>
              r.value.context["text"] == data.fields["text"]
    ensures data.Object? && Get(data.fields, "text").Str? ==>
              r == Ok(Call(Template(Paragraph),
                           map["text" := Str(NbspToSpace(Get(data.fields, "text").s))]))
  {
    if !data.Object? then Err(DataWithoutGet)
    else
      var text := Get(data.fields, "text");
      if !text.Str? then Err(TextNotString)
      else Ok(Call(Template(Paragraph), map["text" := Str(NbspToSpace(text.s))]))
  }

  function GenerateLink(data: Value): Result<Call> {
    if !data.Object? then Err(DataWithoutGet)
    else
      var link := Get(data.fields, "link");
      var meta := Get(data.fields, "meta");
      Ok(Call(Template(LinkTool), map["link" := link, "meta" := meta]))
  }

  function GenerateHeader(data: Value): (r: Result<Call>)
    ensures !data.Object? ==> r == Err(DataWithoutGet)
    ensures data.Object? && !Get(data.fields, "text").Str? ==> r == Err(TextNotString)
    ensures r.Ok? ==> && r.value.template == Template(Header)
                      && r.value.context.Keys == {"text", "level"}
                      && r.value.context["level"] == Get(data.fields, "level")
                      && r.value.context["text"].Str?
                      && !Occurs(r.value.context["text"].s, Nbsp)
    ensures r.Ok? && !Occurs(data.fields["text"].s, Nbsp) ==>
              r.value.context["text"] == data.fields["text"]
    ensures data.Object? && Get(data.fields, "text").Str? ==>
              r == Ok(Call(Template(Header),
                           map["text" := Str(NbspToSpace(Get(data.fields, "text").s)),
                               "level" := Get(data.fields, "level")]))
  {
    if !data.Object? then Err(DataWithoutGet)
    else
      var text := Get(data.fields, "text");
      if !text.Str? then Err(TextNotString)
      else
        var level := Get(data.fields, "level");
        Ok(Call(Template(Header), map["text" := Str(NbspToSpace(text.s)), "level" := level]))
  }

  function GenerateImage(data: Value): (r: Result<Call>)
    ensures !data.Object? ==> r == Err(DataWithoutGet)
    ensures data.Object? && "file" in data.fields && !data.fields["file"].Object? ==>
              r == Err(FileWithoutGet)
    ensures data.Object? && "file" !in data.fields ==> r == Err(UrlNotString)
    ensures (data.Object? && "file" in data.fields && data.fields["file"].Object? &&
             !Get(data.fields["file"].fields, "url").Str?) ==> r == Err(UrlNotString)
    ensures r.Ok? <==> && data.Object?
                       && "file" in data.fields
                       && data.fields["file"].Object?
                       && Get(data.fields["file"].fields, "url").Str?
    ensures r.Ok? ==>
              var d := data.fields;
              && r.value.template == Template(Image)
              && r.value.context.Keys == {"url", "caption", "classes"}
              && r.value.context["url"] == Str(UnescapeUrl(d["file"].fields["url"].s))
              && r.value.context["caption"] == Get(d, "caption")
              && r.value.context["classes"] ==
                   Str(ClassToken(Get(d, "stretched"), Get(d, "withBorder"), Get(d, "withBackground")))
              && (r.value.context["classes"].s == "" <==>
                    !Truthy(Get(d, "stretched")) && !Truthy(Get(d, "withBorder"))
                    && !Truthy(Get(d, "withBackground")))
  {
    if !data.Object? then Err(DataWithoutGet)
    else
      var d := data.fields;
      var file := GetOr(d, "file", Object(map[]));
      if !file.Object? then Err(FileWithoutGet)
      else
        var url := Get(file.fields, "url");
        var caption := Get(d, "caption");
        var classes := ClassToken(Get(d, "stretched"), Get(d, "withBorder"), Get(d, "withBackground"));
        if !url.Str? then Err(UrlNotString)
        else
          Ok(Call(Template(Image),
                  map["url" := Str(UnescapeUrl(url.s)), "caption" := caption, "classes" := Str(classes)]))
  }

  /** A table's `content` defaults to the empty list only when the key is
      missing; an explicit null is passed on as null. */
  function GenerateTable(data: Value): (r: Result<Call>)
    ensures r.Ok? <==> data.Object?
    ensures r.Ok? ==> && r.value.template == Template(Table)
                      && r.value.context.Keys == {"content"}
    ensures r.Ok? && "content" !in data.fields ==> r.value.context["content"] == Array([])
    ensures r.Ok? && "content" in data.fields ==> r.value.context["content"] == data.fields["content"]
  {
    if !data.Object? then Err(DataWithoutGet)
    else
      var content := GetOr(data.fields, "content", Array([]));
      Ok(Call(Template(Table), map["content" := content]))
  }

  function GenerateWarning(data: Value): Result<Call> {
    if !data.Object? then Err(DataWithoutGet)
    else
      var title := Get(data.fields, "title");
      var message := Get(data.fields, "message");
      Ok(Call(Template(Warning), map["title" := title, "message" := message]))
  }

  function GenerateQuote(data: Value): Result<Call> {
    if !data.Object? then Err(DataWithoutGet)
    else
      var alignment := Get(data.fields, "alignment");
      var caption := Get(data.fields, "caption");
      var text := Get(data.fields, "text");
      Ok(Call(Template(Quote), map["alignment" := alignment, "caption" := caption, "text" := text]))
  }

  function GenerateCode(data: Value): Result<Call> {
    if !data.Object? then Err(DataWithoutGet)
    else Ok(Call(Template(Code), map["code" := Get(data.fields, "code")]))
  }

  function GenerateRaw(data: Value): Result<Call> {
    if !data.Object? then Err(DataWithoutGet)
    else Ok(Call(Template(Raw), map["html" := Get(data.fields, "html")]))
  }

  function GenerateEmbed(data: Value): Result<Call> {
    if !data.Object? then Err(DataWithoutGet)
    else
      var service := Get(data.fields, "service");
      var caption := Get(data.fields, "caption");
      var embed := Get(data.fields, "embed");
      Ok(Call(Template(Embed), map["service" := service, "caption" := caption, "embed" := embed]))
  }

  function GenerateList(data: Value): Result<Call> {
    if !data.Object? then Err(DataWithoutGet)
    else
      var items := Get(data.fields, "items");
      var style := Get(data.fields, "style");
      Ok(Call(Template(List), map["items" := items, "style" := style]))
  }

  /** `generate_func(data)` for the generator registered for `k`. The delimiter
      generator takes no parameter, so passing `data` to it always raises. */
  function Generate(k: Kind, data: Value): (r: Result<Call>)
    ensures k == Delimiter ==> r == Err(DelimiterArity)
    ensures k != Delimiter && !data.Object? ==> r == Err(DataWithoutGet)
    ensures r.Ok? ==> r.value.template == Template(k)
  {
    match k
    case Paragraph => GenerateParagraph(data)
    case Header => GenerateHeader(data)
    case List => GenerateList(data)
    case Image => GenerateImage(data)
    case Delimiter => Err(DelimiterArity)
    case Warning => GenerateWarning(data)
    case Table => GenerateTable(data)
    case Code => GenerateCode(data)
    case Raw => GenerateRaw(data)
    case Embed => GenerateEmbed(data)
    case Quote => GenerateQuote(data)
    case LinkTool => GenerateLink(data)
  }

  /** The kinds whose generator copies its fields from `data` unchanged. */
  predicate Verbatim(k: Kind) {
    k in {List, Warning, Code, Raw, Embed, Quote, LinkTool}
  }

  /** The fields each verbatim kind reads from `data`. */
  function Fields(k: Kind): set<string>
    requires Verbatim(k)
  {
    match k
    case List => {"items", "style"}
    case Warning => {"title", "message"}
    case Code => {"code"}
    case Raw => {"html"}
    case Embed => {"service", "caption", "embed"}
    case Quote => {"alignment", "caption", "text"}
    case LinkTool => {"link", "meta"}
  }

  /** `{key: d.get(key) for key in keys}` */
  function Pick(d: map<string, Value>, keys: set<string>): Context {
    map key | key in keys :: Get(d, key)
  }

  /** A verbatim generator fails only on data that is not a dict, and renders
      its own template with exactly its fields, each as `data.get` returns it:
      missing fields reach the template as None, and nothing is escaped or
      defaulted on the way. */
  lemma VerbatimGenerators(k: Kind, data: Value)
    requires Verbatim(k)
    ensures !data.Object? ==> Generate(k, data) == Err(DataWithoutGet)
    ensures data.Object? ==> Generate(k, data) == Ok(Call(Template(k), Pick(data.fields, Fields(k))))
  {
    if data.Object? {
      var d := data.fields;
      match k
      case List => PickTwo(d, "items", "style");
      case Warning => PickTwo(d, "title", "message");
      case Code => PickOne(d, "code");
      case Raw => PickOne(d, "html");
      case Embed => PickThree(d, "service", "caption", "embed");
      case Quote => PickThree(d, "alignment", "caption", "text");
      case LinkTool => PickTwo(d, "link", "meta");
    }
  }

  lemma PickOne(d: map<string, Value>, a: string)
    ensures Pick(d, {a}) == map[a := Get(d, a)]
  {
  }

  lemma PickTwo(d: map<string, Value>, a: string, b: string)
    ensures Pick(d, {a, b}) == map[a := Get(d, a), b := Get(d, b)]
  {
  }

  lemma PickThree(d: map<string, Value>, a: string, b: string, c: string)
    ensures Pick(d, {a, b, c}) == map[a := Get(d, a), b := Get(d, b), c := Get(d, c)]
  {
  }
}

=== FILE: percent.dfy ===
/** Percent-decoding as `urllib.parse.unquote` does it (section 2.1 of RFC 3986),
    over the ASCII range, and the encoder it undoes. */
module Percent {

  predicate IsHexDigit(c: char) {
    '0' <= c <= '9' || 'a' <= c <= 'f' || 'A' <= c <= 'F'
  }

  function HexValue(c: char): (n: nat)
    requires IsHexDigit(c)
    ensures n < 16
  {
    if '0' <= c <= '9' then c as int - '0' as int
    else if 'a' <= c <= 'f' then c as int - 'a' as int + 10
    else c as int - 'A' as int + 10
  }

  /** The upper-case hex digit section 2.1 of RFC 3986 recommends for producers. */
  function HexDigit(n: nat): (c: char)
    requires n < 16
    ensures IsHexDigit(c) && HexValue(c) == n
  {
    if n < 10 then ('0' as int + n) as char else ('A' as int + n - 10) as char
  }

  /** `s` starts with a well-formed escape `%XX` that stands for an ASCII character. */
  predicate StartsWithEscape(s: string) {
    && |s| >= 3
    && s[0] == '%'
    && IsHexDigit(s[1])
    && IsHexDigit(s[2])
    && 16 * HexValue(s[1]) + HexValue(s[2]) < 128
  }

  function EscapedChar(s: string): char
    requires StartsWithEscape(s)
  {
    (16 * HexValue(s[1]) + HexValue(s[2])) as char
  }

  /** `unquote(s)`: each escape `%XX` becomes the character it stands for, in one
      left-to-right pass; a `%` not followed by two hex digits stays as written,
      and decoded characters are never decoded again. */
  function Unquote(s: string): (r: string)
    ensures |r| <= |s|
    ensures '%' !in s ==> r == s
    decreases |s|
  {
    if s == [] then []
    else if StartsWithEscape(s) then [EscapedChar(s)] + Unquote(s[3..])
    else [s[0]] + Unquote(s[1..])
  }

  /** Text without `%` is copied through unchanged. */
  lemma {:induction false} UnquoteSkip(x: string, y: string)
    requires '%' !in x
    ensures Unquote(x + y) == x + Unquote(y)
  {
    if x != [] {
      var s := x + y;
      assert s[0] == x[0];
      assert !StartsWithEscape(s);
      assert s[1..] == x[1..] + y;
      UnquoteSkip(x[1..], y);
      assert [x[0]] + (x[1..] + Unquote(y)) == x + Unquote(y);
    } else {
      assert x + y == y;
    }
  }

  /** An escape at the front is decoded, and the pass continues after it. */
  lemma UnquoteHit(e: string, y: string)
    requires |e| == 3 && StartsWithEscape(e)
    ensures Unquote(e + y) == [EscapedChar(e)] + Unquote(y)
  {
    var s := e + y;
    assert s[..3] == e;
    assert s[3..] == y;
  }

  /** A `%` that does not start a well-formed escape is kept as written. */
  lemma UnquoteKeep(c: char, y: string)
    requires !StartsWithEscape([c] + y)
    ensures Unquote([c] + y) == [c] + Unquote(y)
  {
    assert ([c] + y)[1..] == y;
  }

  /** The characters `quote` never escapes: the unreserved set of section 2.3 of RFC 3986. */
  predicate Unreserved(c: char) {
    'a' <= c <= 'z' || 'A' <= c <= 'Z' || '0' <= c <= '9' || c in "-._~"
  }

  /** Whether `quote(_, safe)` escapes the ASCII character `c`. */
  predicate Escaped(c: char, safe: string) {
    c as int < 128 && !Unreserved(c) && c !in safe
  }

  function QuoteChar(c: char, safe: string): string {
    if Escaped(c, safe) then ['%', HexDigit(c as int / 16), HexDigit(c as int % 16)]
    else [c]
  }

  /** `quote(s, safe)` over the ASCII range: every ASCII character that is
      neither unreserved nor listed in `safe` becomes `%XX`. */
  function Quote(s: string, safe: string): string {
    if s == [] then [] else QuoteChar(s[0], safe) + Quote(s[1..], safe)
  }

  /** Decoding undoes exactly one character's worth of encoding at the front. */
  lemma UnquoteQuoteChar(c: char, t: string, safe: string)
    requires '%' !in safe
    ensures Unquote(QuoteChar(c, safe) + t) == [c] + Unquote(t)
  {
    if Escaped(c, safe) {
      EscapeDecodes(c, safe);
      UnquoteHit(QuoteChar(c, safe), t);
    } else {
      UnquoteKeep(c, t);
    }
  }

  /** The escape written for `c` is well-formed and stands for `c`. */
  lemma EscapeDecodes(c: char, safe: string)
    requires Escaped(c, safe)
    ensures |QuoteChar(c, safe)| == 3 && StartsWithEscape(QuoteChar(c, safe))
    ensures EscapedChar(QuoteChar(c, safe)) == c
  {
    var hi, lo := c as int / 16, c as int % 16;
    assert 16 * hi + lo == c as int;
    assert HexValue(HexDigit(hi)) == hi && HexValue(HexDigit(lo)) == lo;
  }

  /** `unquote` inverts `quote` as long as `%` itself is escaped. */
  lemma {:induction false} UnquoteQuote(s: string, safe: string)
    requires '%' !in safe
    ensures Unquote(Quote(s, safe)) == s
  {
    if s != [] {
      UnquoteQuote(s[1..], safe);
      UnquoteQuoteChar(s[0], Quote(s[1..], safe), safe);
      assert [s[0]] + s[1..] == s;
    }
  }
}

=== FILE: properties.dfy ===
/** Properties of the whole filter that relate several calls: decoding,
    concatenation of documents, skipped and failing blocks, and case. */
module FilterProperties {
  import opened Values
  import opened Results
  import opened Text
  import opened Generators
  import opened Filter

  /** The document `{"blocks": blocks}`. */
  function Document(blocks: seq<Value>): (d: Value)
    ensures Truthy(d) && d != Str("null")
  {
    var fields := map["blocks" := Array(blocks)];
    assert "blocks" in fields;
    Object(fields)
  }

  /** A dict is rendered without consulting the decoder. */
  lemma DictNeverDecoded(fields: map<string, Value>, d1: Decoder, d2: Decoder, render: Renderer)
    ensures Editorjs(Object(fields), d1, render) == Editorjs(Object(fields), d2, render)
  {
  }

  /** A string that decodes to a non-empty dict renders as that dict does. */
  lemma DecodedStringActsAsDict(s: string, doc: map<string, Value>, decode: Decoder, render: Renderer)
    requires s != "" && s != "null"
    requires decode(s) == Some(Object(doc)) && doc != map[]
    ensures Editorjs(Str(s), decode, render) == Editorjs(Object(doc), decode, render)
  {
  }

  /** A string that decodes to an empty dict raises, although the empty dict
      itself renders as "": the emptiness test runs before decoding only. */
  lemma DecodedEmptyDictRaises(s: string, decode: Decoder, render: Renderer)
    requires s != "" && s != "null"
    requires decode(s) == Some(Object(map[]))
    ensures Editorjs(Str(s), decode, render) == Err(MissingBlocks)
    ensures Editorjs(Object(map[]), decode, render) == Ok(Returned(Str("")))
  {
  }

  /** Only `blocks` matters: a dict with other keys besides (Editor.js writes
      `time` and `version`) renders as the document holding just its blocks. */
  lemma BlocksDecideOutput(fields: map<string, Value>, items: seq<Value>, decode: Decoder, render: Renderer)
    requires "blocks" in fields && fields["blocks"] == Array(items)
    ensures Editorjs(Object(fields), decode, render) == Editorjs(Document(items), decode, render)
  {
  }

  /** A document renders when no block raises, as the join of its fragments;
      otherwise it raises what the first failing block raises, and no partial
      output is returned. This holds for any dict whose `blocks` is a list,
      whatever other keys it carries. */
  lemma DocumentOutput(fields: map<string, Value>, items: seq<Value>, decode: Decoder, render: Renderer)
    requires "blocks" in fields && fields["blocks"] == Array(items)
    ensures var r := Editorjs(Object(fields), decode, render);
            && (r.Ok? <==> forall i :: 0 <= i < |items| ==> Dispatch(items[i], render).Ok?)
            && (r.Ok? ==> r.value == Safe(Join(Fragments(items, render).value, "")))
            && (r.Err? ==> exists i :: && 0 <= i < |items|
                                       && Dispatch(items[i], render) == Err(r.failure)
                                       && forall j :: 0 <= j < i ==> Dispatch(items[j], render).Ok?)
  {
    FragmentsFirstFailure(items, render);
  }

  /** Rendering is a homomorphism from block lists to markup: the output for
      `a + b` is the output for `a` followed by the output for `b`, and a
      failure in `a` wins over one in `b`. */
  lemma {:induction false} OutputConcatenates(a: seq<Value>, b: seq<Value>, decode: Decoder, render: Renderer)
    ensures var ra := Editorjs(Document(a), decode, render);
            var rb := Editorjs(Document(b), decode, render);
            Editorjs(Document(a + b), decode, render) ==
              if ra.Err? then ra
              else if rb.Err? then rb
              else Ok(Safe(ra.value.html + rb.value.html))
  {
    FragmentsAppend(a, b, render);
    var fa := Fragments(a, render);
    var fb := Fragments(b, render);
    if fa.Ok? && fb.Ok? {
      JoinAppend(fa.value, fb.value);
    }
  }

  /** A block whose type is a string not registered in lower case contributes
      nothing, wherever it stands. */
  lemma UnknownTypeContributesNothing(a: seq<Value>, item: Value, b: seq<Value>,
                                      decode: Decoder, render: Renderer)
    requires item.Object? && TypeOf(item).Str?
    requires Lookup(Lower(TypeOf(item).s)) == None
    ensures Editorjs(Document(a + [item] + b), decode, render) == Editorjs(Document(a + b), decode, render)
  {
    FragmentsSingle(item, render);
    FragmentsAppend(a, [item], render);
    FragmentsAppend(a + [item], b, render);
    FragmentsAppend(a, b, render);
    var fa := Fragments(a, render);
    if fa.Ok? {
      assert fa.value + [] == fa.value;
    }
  }

  /** A delimiter block, in any letter case and with any data, makes the whole
      document raise once every block before it has rendered. */
  lemma DelimiterAbortsDocument(a: seq<Value>, item: Value, b: seq<Value>,
                                decode: Decoder, render: Renderer)
    requires forall i :: 0 <= i < |a| ==> Dispatch(a[i], render).Ok?
    requires item.Object? && TypeOf(item).Str? && Lower(TypeOf(item).s) == "delimiter"
    ensures Editorjs(Document(a + [item] + b), decode, render) == Err(DelimiterArity)
  {
    LookupName(Delimiter);
    DispatchRegistered(item, Delimiter, render);
    FragmentsSingle(item, render);
    FragmentsAppend(a, [item], render);
    FragmentsAppend(a + [item], b, render);
    assert Fragments(a + [item] + b, render) == Err(DelimiterArity);
  }

  /** Types that lower-case alike dispatch alike. */
  lemma DispatchIgnoresCase(fields: map<string, Value>, t1: string, t2: string, render: Renderer)
    requires Lower(t1) == Lower(t2)
    ensures Dispatch(Object(fields["type" := Str(t1)]), render) ==
            Dispatch(Object(fields["type" := Str(t2)]), render)
  {
  }

  /** Only a failed decode is caught: a document without `blocks`, a block
      without a type, and a registered block without data all raise. */
  lemma MissingFieldsRaise(fields: map<string, Value>, item: map<string, Value>,
                           decode: Decoder, render: Renderer)
    ensures fields != map[] && "blocks" !in fields ==>
              Editorjs(Object(fields), decode, render) == Err(MissingBlocks)
    ensures "type" !in item ==> Dispatch(Object(item), render) == Err(TypeNotString)
    ensures && "type" in item && item["type"].Str? && "data" !in item
            && Lookup(Lower(item["type"].s)).Some? ==>
              Dispatch(Object(item), render).Err?
  {
  }
}

=== FILE: results.dfy ===
/** Optional values and the outcome of a call that may raise. */
module Results {

  datatype Option<+T> = None | Some(value: T)

  /** Every way a call of the `editorjs` filter can raise. Each constructor names
      the situation; the comment gives the Python exception it surfaces as. */
  datatype Failure =
    | NotSubscriptable   // `value['blocks']` on a decoded value that is not a dict: TypeError
    | MissingBlocks      // `value['blocks']` on a dict without that key: KeyError
    | BlocksNotIterable  // `for item in value['blocks']` over None, a bool or a number: TypeError
    | BlockWithoutGet    // `item.get(...)` on an item that is not a dict: AttributeError
    | TypeNotString      // `type.lower()` on a missing or non-string type: AttributeError
    | DelimiterArity     // `generate_delimiter(data)` on a function of no parameters: TypeError
    | DataWithoutGet     // `data.get(...)` on missing or non-dict data: AttributeError
    | TextNotString      // `.replace(...)` on missing or non-string text: AttributeError
    | FileWithoutGet     // `.get('url')` on a `file` entry that is not a dict: AttributeError
    | UrlNotString       // `unquote(url)` on a missing or non-string url: TypeError or AttributeError

  /** The value of a call, or the failure it raised. */
  datatype Result<+T> = Ok(value: T) | Err(failure: Failure) {

    predicate IsFailure() {
      Err?
    }

    function PropagateFailure<U>(): Result<U>
      requires Err?
    {
      Err(failure)
    }

    function Extract(): T
      requires Ok?
    {
      value
    }
  }
}

=== FILE: scenarios.dfy ===
/** Concrete inputs and what the filter does with them. */
module Scenarios {
  import opened Values
  import opened Results
  import opened Text
  import Percent
  import opened Transforms
  import opened Generators
  import opened Filter
  import opened FilterProperties

  /** A block `{"type": type, "data": data}`. */
  function Block(kind: string, data: Value): Value {
    Object(map["type" := Str(kind), "data" := data])
  }

  /** None, "", "null" and the empty dict all give "". */
  lemma EmptyInputs(decode: Decoder, render: Renderer)
    ensures Editorjs(Null, decode, render) == Ok(Returned(Str("")))
    ensures Editorjs(Str(""), decode, render) == Ok(Returned(Str("")))
    ensures Editorjs(Str("null"), decode, render) == Ok(Returned(Str("")))
    ensures Editorjs(Object(map[]), decode, render) == Ok(Returned(Str("")))
  {
  }

  /** Input that fails to decode comes back as it was given. */
  lemma MalformedInputReturned(decode: Decoder, render: Renderer)
    requires decode("{not valid json") == None
    ensures Editorjs(Str("{not valid json"), decode, render) == Ok(Returned(Str("{not valid json")))
    ensures Editorjs(Int(5), decode, render) == Ok(Returned(Int(5)))
    ensures Editorjs(Array([Null]), decode, render) == Ok(Returned(Array([Null])))
  {
  }

  lemma NbspExamplePieces()
    ensures "Hello&nbsp;World" == "Hello" + (Nbsp + "World")
    ensures "Hello" + (" " + ("World" + "")) == "Hello World"
    ensures '&' !in "Hello" && '&' !in "World"
  {
  }

  lemma NbspExample()
    ensures NbspToSpace("Hello&nbsp;World") == "Hello World"
  {
    NbspExamplePieces();
    ReplaceSkip("Hello", Nbsp + "World", Nbsp, " ");
    ReplaceHit("World", Nbsp, " ");
    ReplaceSkip("World", "", Nbsp, " ");
  }

  /** Facts about the literals of the URL example, kept apart from the proof. */
  lemma UrlDecodePieces()
    ensures "https://x.com/a%20b?x=1&amp;y=2" == "https://x.com/a" + ("%20" + "b?x=1&amp;y=2")
    ensures "https://x.com/a" + ([' '] + "b?x=1&amp;y=2") == "https://x.com/a b?x=1&amp;y=2"
    ensures '%' !in "https://x.com/a" && '%' !in "b?x=1&amp;y=2"
    ensures Percent.StartsWithEscape("%20") && Percent.EscapedChar("%20") == ' '
  {
  }

  lemma UrlUnescapePieces()
    ensures "https://x.com/a b?x=1&amp;y=2" == "https://x.com/a b?x=1" + (EscapedAmp + "y=2")
    ensures "https://x.com/a b?x=1" + ("&" + "y=2") == "https://x.com/a b?x=1&y=2"
    ensures '&' !in "https://x.com/a b?x=1" && '&' !in "y=2"
  {
  }

  lemma UrlExampleDecode()
    ensures Percent.Unquote("https://x.com/a%20b?x=1&amp;y=2") == "https://x.com/a b?x=1&amp;y=2"
  {
    UrlDecodePieces();
    var head := "https://x.com/a";
    var tail := "b?x=1&amp;y=2";
    Percent.UnquoteSkip(head, "%20" + tail);
    Percent.UnquoteHit("%20", tail);
    assert Percent.Unquote(tail) == tail;
  }

  lemma UrlExampleUnescape()
    ensures Replace("https://x.com/a b?x=1&amp;y=2", EscapedAmp, "&") == "https://x.com/a b?x=1&y=2"
  {
    UrlUnescapePieces();
    var head := "https://x.com/a b?x=1";
    ReplaceSkip(head, EscapedAmp + "y=2", EscapedAmp, "&");
    ReplaceHit("y=2", EscapedAmp, "&");
    ReplaceAbsent("y=2", EscapedAmp, "&");
    assert Replace("y=2", EscapedAmp, "&") == "y=2";
  }

  /** One layer of each encoding is removed, percent-encoding first. */
  lemma UrlExample()
    ensures UnescapeUrl("https://x.com/a%20b?x=1&amp;y=2") == "https://x.com/a b?x=1&y=2"
  {
    UrlExampleDecode();
    UrlExampleUnescape();
  }

  lemma DoubleEscapedAmpPieces()
    ensures "&amp;amp;" == EscapedAmp + "amp;"
    ensures EscapedAmp + "" == EscapedAmp && "&amp;amp;" + "" == "&amp;amp;" && "amp;" + "" == "amp;"
    ensures "&" + "amp;" == "&amp;"
    ensures '%' !in "&amp;amp;" && '&' !in "amp;"
  {
  }

  /** Only one layer of `&amp;` is removed. */
  lemma DoubleEscapedAmpExample()
    ensures UnescapeUrl("&amp;amp;") == "&amp;"
  {
    DoubleEscapedAmpPieces();
    Percent.UnquoteSkip("&amp;amp;", "");
    assert Percent.Unquote("&amp;amp;") == "&amp;amp;";
    ReplaceHit("amp;", EscapedAmp, "&");
    ReplaceSkip("amp;", "", EscapedAmp, "&");
    assert Replace("amp;", EscapedAmp, "&") == "amp;";
  }

  /** A percent-encoded `&amp;` is decoded first and then unescaped too. */
  lemma EncodedAmpExample()
    ensures UnescapeUrl("%26amp;") == "&"
  {
    assert "%26amp;" == "%26" + "amp;";
    Percent.UnquoteHit("%26", "amp;");
    Percent.UnquoteSkip("amp;", "");
    assert "amp;" + "" == "amp;";
    assert Percent.Unquote("%26amp;") == EscapedAmp + "";
    ReplaceHit("", EscapedAmp, "&");
  }

  /** A decoded `%` is not decoded again, and malformed escapes stay. */
  lemma UnquoteExamples()
    ensures Percent.Unquote("%2541") == "%41"
    ensures Percent.Unquote("%zz%4") == "%zz%4"
  {
    assert "%2541" == "%25" + "41";
    Percent.UnquoteHit("%25", "41");
    Percent.UnquoteSkip("41", "");
    assert "41" + "" == "41";
    assert "%zz%4" == ['%'] + ("zz" + ("%4"));
    Percent.UnquoteKeep('%', "zz%4");
    Percent.UnquoteSkip("zz", "%4");
    assert "%4" == ['%'] + "4";
    Percent.UnquoteKeep('%', "4");
    Percent.UnquoteSkip("4", "");
    assert "4" + "" == "4";
  }

  lemma JoinPair(a: string, b: string, sep: string)
    ensures Join([a, b], sep) == a + sep + b
  {
    assert [a, b][1..] == [b];
  }

  lemma ClassTokenExamples()
    ensures ClassToken(Bool(true), Bool(true), Bool(false)) == "stretched withBorder"
    ensures ClassToken(Bool(false), Str(""), Null) == ""
  {
    var cs := ClassList(Bool(true), Bool(true), Bool(false));
    assert cs == [Flags[0], Flags[1]];
    JoinPair(Flags[0], Flags[1], " ");
    FlagPairPieces();
  }

  lemma FlagPairPieces()
    ensures Flags[0] + " " + Flags[1] == "stretched withBorder"
  {
  }

  lemma LowerParagraph()
    ensures Lower("PARAGRAPH") == "paragraph" == Lower("paragraph")
  {
  }

  /** A block typed `"PARAGRAPH"` dispatches exactly like one typed
      `"paragraph"`. */
  lemma ParagraphTypeCaseInsensitive(fields: map<string, Value>, render: Renderer)
    ensures Dispatch(Object(fields["type" := Str("PARAGRAPH")]), render) ==
            Dispatch(Object(fields["type" := Str("paragraph")]), render)
  {
    LowerParagraph();
    DispatchIgnoresCase(fields, "PARAGRAPH", "paragraph", render);
  }

  /** A paragraph's `&nbsp;` reaches the template as a space. */
  lemma ParagraphExample()
    ensures GenerateParagraph(Object(map["text" := Str("Hello&nbsp;World")])) ==
            Ok(Call(Template(Paragraph), map["text" := Str("Hello World")]))
  {
    NbspExample();
  }

  /** A block of a type that lower-cases to `paragraph`, holding `text`. */
  function ParagraphBlock(kind: string, text: string): Value {
    Block(kind, Object(map["text" := Str(text)]))
  }

  /** A paragraph block renders its text with `&nbsp;` replaced. */
  lemma ParagraphBlockRenders(kind: string, text: string, render: Renderer)
    requires Lower(kind) == "paragraph"
    ensures Dispatch(ParagraphBlock(kind, text), render) ==
            Ok(Some(render(Template(Paragraph), map["text" := Str(NbspToSpace(text))])))
  {
    LookupName(Paragraph);
  }

  /** An image block renders whenever its generator succeeds. */
  lemma ImageBlockRenders(kind: string, data: Value, render: Renderer)
    requires Lower(kind) == "image"
    requires data.Object? && "file" in data.fields && data.fields["file"].Object?
    requires Get(data.fields["file"].fields, "url").Str?
    ensures Dispatch(Block(kind, data), render) ==
            Ok(Some(render(Template(Image), GenerateImage(data).value.context)))
  {
    LookupName(Image);
    DispatchRegistered(Block(kind, data), Image, render);
  }

  /** A document shaped `[paragraph, unknown, delimiter, image]` raises at the
      delimiter, so nothing is returned. */
  lemma MixedDocumentRaises(pk: string, text: string, uk: string, u: Value, dk: string, d: Value,
                            ik: string, i: Value, decode: Decoder, render: Renderer)
    requires Lower(pk) == "paragraph"
    requires Lookup(Lower(uk)) == None
    requires Lower(dk) == "delimiter"
    ensures Editorjs(Document([ParagraphBlock(pk, text), Block(uk, u), Block(dk, d), Block(ik, i)]),
                     decode, render) == Err(DelimiterArity)
  {
    var p, ub, db, ib := ParagraphBlock(pk, text), Block(uk, u), Block(dk, d), Block(ik, i);
    ParagraphBlockRenders(pk, text, render);
    assert Dispatch(ub, render) == Ok(None);
    assert [p, ub] + [db] + [ib] == [p, ub, db, ib];
    DelimiterAbortsDocument([p, ub], db, [ib], decode, render);
  }

  /** Without the delimiter, the paragraph and the image render in that order
      and the unknown block adds nothing. */
  lemma MixedDocumentRenders(pk: string, text: string, uk: string, u: Value, ik: string, i: Value,
                             decode: Decoder, render: Renderer)
    requires Lower(pk) == "paragraph"
    requires Lookup(Lower(uk)) == None
    requires Lower(ik) == "image"
    requires i.Object? && "file" in i.fields && i.fields["file"].Object?
    requires Get(i.fields["file"].fields, "url").Str?
    ensures Editorjs(Document([ParagraphBlock(pk, text), Block(uk, u), Block(ik, i)]), decode, render) ==
            Ok(Safe(render(Template(Paragraph), map["text" := Str(NbspToSpace(text))])
                    + render(Template(Image), GenerateImage(i).value.context)))
  {
    var p, ub, ib := ParagraphBlock(pk, text), Block(uk, u), Block(ik, i);
    ParagraphBlockRenders(pk, text, render);
    ImageBlockRenders(ik, i, render);
    SkipMiddle(p, ub, ib, decode, render);
    PairDocument(p, ib, decode, render);
  }

  /** An unknown block between two others changes nothing. */
  lemma SkipMiddle(p: Value, u: Value, i: Value, decode: Decoder, render: Renderer)
    requires u.Object? && TypeOf(u).Str? && Lookup(Lower(TypeOf(u).s)) == None
    ensures Editorjs(Document([p, u, i]), decode, render) == Editorjs(Document([p, i]), decode, render)
  {
    UnknownTypeContributesNothing([p], u, [i], decode, render);
    assert [p] + [u] + [i] == [p, u, i];
    assert [p] + [i] == [p, i];
  }

  /** Two blocks that render give their fragments in order. */
  lemma PairDocument(p: Value, i: Value, decode: Decoder, render: Renderer)
    requires Dispatch(p, render).Ok? && Dispatch(p, render).value.Some?
    requires Dispatch(i, render).Ok? && Dispatch(i, render).value.Some?
    ensures Editorjs(Document([p, i]), decode, render) ==
            Ok(Safe(Dispatch(p, render).value.value + Dispatch(i, render).value.value))
  {
    OutputConcatenates([p], [i], decode, render);
    SingleBlockDocument(p, decode, render);
    SingleBlockDocument(i, decode, render);
    assert [p] + [i] == [p, i];
    assert Editorjs(Document([p, i]), decode, render) ==
           Editorjs(Document([p] + [i]), decode, render);
  }

  /** A document of one block that renders is that block's fragment. */
  lemma SingleBlockDocument(item: Value, decode: Decoder, render: Renderer)
    requires Dispatch(item, render).Ok? && Dispatch(item, render).value.Some?
    ensures Editorjs(Document([item]), decode, render) == Ok(Safe(Dispatch(item, render).value.value))
  {
    FragmentsSingle(item, render);
    var fields := map["blocks" := Array([item])];
    assert Document([item]) == Object(fields);
    DocumentOutput(fields, [item], decode, render);
  }
}

=== FILE: text.dfy ===
/** The Python string operations the filter uses: `str.replace`, `str.lower`,
    `str.join` and, as the partner of `join`, `str.split`. */
module Text {

  /** `pat` occurs in `s` at index `i`. */
  predicate OccursAt(s: string, pat: string, i: nat) {
    i + |pat| <= |s| && s[i..i + |pat|] == pat
  }

  /** `pat in s` */
  predicate Occurs(s: string, pat: string) {
    exists i: nat :: i <= |s| && OccursAt(s, pat, i)
  }

  /** `s.replace(pat, rep)` for a non-empty `pat`: one left-to-right pass that
      replaces non-overlapping occurrences; replacement text is never rescanned. */
  function Replace(s: string, pat: string, rep: string): (r: string)
    requires pat != []
    ensures |rep| <= |pat| ==> |r| <= |s|
    ensures |rep| >= |pat| ==> |r| >= |s|
    decreases |s|
  {
    if |s| < |pat| then s
    else if s[..|pat|] == pat then rep + Replace(s[|pat|..], pat, rep)
    else [s[0]] + Replace(s[1..], pat, rep)
  }

  /** An occurrence in the tail of `s` is an occurrence in `s`. */
  lemma OccursInTail(s: string, pat: string)
    requires s != []
    ensures Occurs(s[1..], pat) ==> Occurs(s, pat)
  {
    if Occurs(s[1..], pat) {
      var i: nat :| i <= |s[1..]| && OccursAt(s[1..], pat, i);
      assert s[i + 1..i + 1 + |pat|] == s[1..][i..i + |pat|];
      assert OccursAt(s, pat, i + 1);
    }
  }

  /** Replacing a pattern that does not occur changes nothing. */
  lemma {:induction false} ReplaceAbsent(s: string, pat: string, rep: string)
    requires pat != []
    ensures !Occurs(s, pat) ==> Replace(s, pat, rep) == s
    decreases |s|
  {
    if |s| >= |pat| && !Occurs(s, pat) {
      assert !OccursAt(s, pat, 0);
      OccursInTail(s, pat);
      ReplaceAbsent(s[1..], pat, rep);
      assert [s[0]] + s[1..] == s;
    }
  }

  /** Text that cannot start an occurrence is copied through unchanged. */
  lemma {:induction false} ReplaceSkip(x: string, y: string, pat: string, rep: string)
    requires pat != [] && pat[0] !in x
    ensures Replace(x + y, pat, rep) == x + Replace(y, pat, rep)
  {
    if x != [] {
      var s := x + y;
      assert s[1..] == x[1..] + y;
      if |s| >= |pat| {
        assert s[..|pat|][0] == x[0];
      }
      ReplaceSkip(x[1..], y, pat, rep);
      assert [x[0]] + (x[1..] + Replace(y, pat, rep)) == x + Replace(y, pat, rep);
    } else {
      assert x + y == y;
    }
  }

  /** An occurrence at the front is replaced, and the pass continues after it. */
  lemma ReplaceHit(y: string, pat: string, rep: string)
    requires pat != []
    ensures Replace(pat + y, pat, rep) == rep + Replace(y, pat, rep)
  {
    assert (pat + y)[..|pat|] == pat;
    assert (pat + y)[|pat|..] == y;
  }

  /** Every occurrence is replaced, wherever it stands: when the pattern's
      first character does not occur again in it, the pass over `a + pat + b`
      is the pass over `a`, then `rep`, then the pass over `b`. */
  lemma {:induction false} ReplaceSplit(a: string, b: string, pat: string, rep: string)
    requires pat != [] && pat[0] !in pat[1..]
    ensures Replace(a + pat + b, pat, rep) == Replace(a, pat, rep) + rep + Replace(b, pat, rep)
    decreases |a|
  {
    var s := a + pat + b;
    if a == [] {
      assert s == pat + b;
      ReplaceHit(b, pat, rep);
    } else if |a| >= |pat| && a[..|pat|] == pat {
      ReplaceSplit(a[|pat|..], b, pat, rep);
      ReplaceSplitHit(a, b, pat, rep);
    } else {
      NoMatchBeforePattern(a, b, pat);
      ReplaceSplit(a[1..], b, pat, rep);
      ReplaceSplitSkip(a, b, pat, rep);
    }
  }

  /** The step of ReplaceSplit where `a` starts with the pattern: it is
      replaced and the split carries over from the rest of `a`. */
  lemma ReplaceSplitHit(a: string, b: string, pat: string, rep: string)
    requires pat != [] && |a| >= |pat| && a[..|pat|] == pat
    requires var a' := a[|pat|..];
             Replace(a' + pat + b, pat, rep) == Replace(a', pat, rep) + rep + Replace(b, pat, rep)
    ensures Replace(a + pat + b, pat, rep) == Replace(a, pat, rep) + rep + Replace(b, pat, rep)
  {
    var a' := a[|pat|..];
    PrefixOfAppend(a, pat, b);
    ReplaceHit(a', pat, rep);
    ReplaceHit(a' + pat + b, pat, rep);
    var x := Replace(a', pat, rep);
    var y := Replace(b, pat, rep);
    assert rep + (x + rep + y) == rep + x + rep + y;
  }

  /** The step of ReplaceSplit where `a` does not start with the pattern: its
      first character is copied and the split carries over from `a[1..]`. */
  lemma ReplaceSplitSkip(a: string, b: string, pat: string, rep: string)
    requires pat != [] && a != [] && !(|a| >= |pat| && a[..|pat|] == pat)
    requires (a + pat + b)[..|pat|] != pat
    requires Replace(a[1..] + pat + b, pat, rep) == Replace(a[1..], pat, rep) + rep + Replace(b, pat, rep)
    ensures Replace(a + pat + b, pat, rep) == Replace(a, pat, rep) + rep + Replace(b, pat, rep)
  {
    var s := a + pat + b;
    ReplaceFirst(s, pat, rep);
    ReplaceFirst(a, pat, rep);
    TailOfAppend(a, pat, b);
    var x := Replace(a[1..], pat, rep);
    var y := Replace(b, pat, rep);
    assert Replace(s, pat, rep) == [a[0]] + (x + rep + y);
    assert Replace(a, pat, rep) == [a[0]] + x;
    assert [a[0]] + (x + rep + y) == [a[0]] + x + rep + y;
  }

  lemma PrefixOfAppend(a: string, pat: string, b: string)
    requires |a| >= |pat| && a[..|pat|] == pat
    ensures a == pat + a[|pat|..]
    ensures a + pat + b == pat + (a[|pat|..] + pat + b)
  {
    assert a == a[..|pat|] + a[|pat|..];
  }

  lemma TailOfAppend(a: string, pat: string, b: string)
    requires a != []
    ensures (a + pat + b)[0] == a[0]
    ensures (a + pat + b)[1..] == a[1..] + pat + b
  {
  }

  /** A pattern whose first character does not occur again in it cannot start
      inside `a` and run into the occurrence right after `a`, unless `a`
      itself starts with it. */
  lemma NoMatchBeforePattern(a: string, b: string, pat: string)
    requires pat != [] && pat[0] !in pat[1..]
    requires a != [] && !(|a| >= |pat| && a[..|pat|] == pat)
    ensures (a + pat + b)[..|pat|] != pat
  {
    var s := a + pat + b;
    if |a| >= |pat| {
      assert s[..|pat|] == a[..|pat|];
    } else {
      assert s[..|pat|][|a|] == pat[0];
      assert pat[|a|] == pat[1..][|a| - 1];
    }
  }

  /** A non-empty string that does not start with the pattern keeps its first
      character. */
  lemma ReplaceFirst(a: string, pat: string, rep: string)
    requires pat != [] && a != [] && !(|a| >= |pat| && a[..|pat|] == pat)
    ensures Replace(a, pat, rep) == [a[0]] + Replace(a[1..], pat, rep)
  {
    if |a| < |pat| {
      assert [a[0]] + a[1..] == a;
    }
  }

  predicate IsUpper(c: char) {
    'A' <= c <= 'Z'
  }

  function LowerChar(c: char): char {
    if IsUpper(c) then (c as int + 32) as char else c
  }

  /** `s.lower()` over the ASCII letters. */
  function Lower(s: string): (r: string)
    ensures |r| == |s|
    ensures forall i :: 0 <= i < |s| ==> r[i] == LowerChar(s[i])
  {
    if s == [] then [] else [LowerChar(s[0])] + Lower(s[1..])
  }

  /** The result holds no upper-case letter, and every other character is
      kept where it was. */
  lemma LowerResult(s: string)
    ensures forall i :: 0 <= i < |s| ==> !IsUpper(Lower(s)[i])
    ensures forall i :: 0 <= i < |s| && !IsUpper(s[i]) ==> Lower(s)[i] == s[i]
    ensures forall i :: 0 <= i < |s| && IsUpper(s[i]) ==> Lower(s)[i] as int == s[i] as int + 32
  {
  }

  /** Lower-casing twice is lower-casing once. */
  lemma LowerIdempotent(s: string)
    ensures Lower(Lower(s)) == Lower(s)
  {
  }

  /** A string without upper-case letters is its own lower-case form. */
  lemma LowerFixesLowerCase(s: string)
    requires forall i :: 0 <= i < |s| ==> !IsUpper(s[i])
    ensures Lower(s) == s
  {
  }

  /** `sep.join(parts)` */
  function Join(parts: seq<string>, sep: string): string {
    if parts == [] then ""
    else if |parts| == 1 then parts[0]
    else parts[0] + sep + Join(parts[1..], sep)
  }

  /** A join of no parts is empty; otherwise it starts with the first part and
      ends with the last. */
  lemma {:induction false} JoinEnds(parts: seq<string>, sep: string)
    ensures parts == [] ==> Join(parts, sep) == ""
    ensures parts != [] ==> var r := Join(parts, sep);
                            |parts[0]| <= |r| && r[..|parts[0]|] == parts[0]
    ensures parts != [] ==> var r, last := Join(parts, sep), parts[|parts| - 1];
                            |last| <= |r| && r[|r| - |last|..] == last
  {
    if |parts| > 1 {
      JoinEnds(parts[1..], sep);
      var rest := Join(parts[1..], sep);
      var r := parts[0] + sep + rest;
      assert r[..|parts[0]|] == parts[0];
      assert parts[1..][|parts[1..]| - 1] == parts[|parts| - 1];
      assert r[|r| - |rest|..] == rest;
    }
  }

  /** `s.split(sep)` for a one-character separator: the pieces between
      separators, empty ones included. */
  function Split(s: string, sep: char): (r: seq<string>)
    ensures |r| > 0
  {
    if s == [] then [""]
    else
      var rest := Split(s[1..], sep);
      if s[0] == sep then [""] + rest else [[s[0]] + rest[0]] + rest[1..]
  }

  lemma {:induction false} SplitWithoutSeparator(p: string, sep: char)
    ensures sep !in p ==> Split(p, sep) == [p]
  {
    if p != [] && sep !in p {
      SplitWithoutSeparator(p[1..], sep);
      assert [p[0]] + p[1..] == p;
    }
  }

  lemma {:induction false} SplitAfterPiece(p: string, t: string, sep: char)
    ensures sep !in p ==> Split(p + [sep] + t, sep) == [p] + Split(t, sep)
  {
    if p == [] {
      assert p + [sep] + t == [sep] + t;
      assert ([sep] + t)[1..] == t;
    } else if sep !in p {
      SplitAfterPiece(p[1..], t, sep);
      assert (p + [sep] + t)[1..] == p[1..] + [sep] + t;
      assert [p[0]] + p[1..] == p;
    }
  }

  /** Splitting a join on its separator gives the parts back, when no part
      contains the separator. */
  lemma {:induction false} SplitJoin(parts: seq<string>, sep: char)
    requires parts != []
    requires forall i :: 0 <= i < |parts| ==> sep !in parts[i]
    ensures Split(Join(parts, [sep]), sep) == parts
  {
    if |parts| == 1 {
      SplitWithoutSeparator(parts[0], sep);
    } else {
      SplitJoin(parts[1..], sep);
      SplitAfterPiece(parts[0], Join(parts[1..], [sep]), sep);
      assert [parts[0]] + parts[1..] == parts;
    }
  }

  /** Joining with no separator distributes over concatenation of the parts. */
  lemma {:induction false} JoinAppend(a: seq<string>, b: seq<string>)
    ensures Join(a + b, "") == Join(a, "") + Join(b, "")
  {
    if a == [] {
      assert a + b == b;
    } else if |a| == 1 {
      if b != [] {
        assert (a + b)[1..] == b;
      }
    } else {
      JoinAppend(a[1..], b);
      assert (a + b)[1..] == a[1..] + b;
    }
  }
}

=== FILE: transforms.dfy ===
/** The three string transformations the generators apply before rendering:
    `&nbsp;` to space, the image class token, and image URL unescaping. */
module Transforms {
  import opened Values
  import opened Text
  import Percent

  const Nbsp: string := "&nbsp;"
  const EscapedAmp: string := "&amp;"

  // ---------------------------------------------------------------------------
  // `&nbsp;` to space (paragraph and header text)
  // ---------------------------------------------------------------------------

  /** A prefix of the output that holds no space was copied verbatim from the
      input: every replacement writes a space. */
  lemma {:induction false} SpaceFreePrefix(t: string, w: string)
    ensures var r := Replace(t, Nbsp, " ");
            (|w| <= |r| && r[..|w|] == w && ' ' !in w) ==> (|w| <= |t| && t[..|w|] == w)
    decreases |t|
  {
    var r := Replace(t, Nbsp, " ");
    if w != [] && |t| >= |Nbsp| && t[..|Nbsp|] != Nbsp {
      var rest := Replace(t[1..], Nbsp, " ");
      assert r == [t[0]] + rest;
      SpaceFreePrefix(t[1..], w[1..]);
      if |w| <= |r| && r[..|w|] == w && ' ' !in w {
        assert rest[..|w[1..]|] == w[1..];
        assert t[..|w|] == [t[0]] + t[1..][..|w[1..]|];
      }
    } else if w != [] && |t| >= |Nbsp| {
      assert r[0] == ' ';
    }
  }

  /** Putting a character in front of text without `&nbsp;` creates none,
      unless it is the `&` of a following `nbsp;`. */
  lemma ConsWithoutNbsp(c: char, rest: string)
    requires !Occurs(rest, Nbsp)
    requires !(c == '&' && |rest| >= 5 && rest[..5] == "nbsp;")
    ensures !Occurs([c] + rest, Nbsp)
  {
    var r := [c] + rest;
    forall i: nat | i <= |r|
      ensures !OccursAt(r, Nbsp, i)
    {
      if i == 0 && 6 <= |r| {
        assert r[..6][0] == c && r[..6][1..] == rest[..5];
        assert Nbsp[0] == '&' && Nbsp[1..] == "nbsp;";
      } else if i > 0 && i + 6 <= |r| {
        assert r[i..i + 6] == rest[i - 1..i - 1 + 6];
        assert !OccursAt(rest, Nbsp, i - 1);
      }
    }
  }

  /** No `&nbsp;` survives the replacement: the pass leaves none behind and
      creates none. */
  lemma {:induction false} NoNbspAfterReplace(t: string)
    ensures !Occurs(Replace(t, Nbsp, " "), Nbsp)
    decreases |t|
  {
    var r := Replace(t, Nbsp, " ");
    if |t| < |Nbsp| {
      assert r == t;
    } else if t[..|Nbsp|] == Nbsp {
      var rest := Replace(t[|Nbsp|..], Nbsp, " ");
      NoNbspAfterReplace(t[|Nbsp|..]);
      ConsWithoutNbsp(' ', rest);
      assert r == [' '] + rest;
    } else {
      var rest := Replace(t[1..], Nbsp, " ");
      NoNbspAfterReplace(t[1..]);
      assert !(t[0] == '&' && |rest| >= 5 && rest[..5] == "nbsp;") by {
        SpaceFreePrefix(t[1..], "nbsp;");
        assert t[..6] == [t[0]] + t[1..][..5];
      }
      ConsWithoutNbsp(t[0], rest);
      assert r == [t[0]] + rest;
    }
  }

  /** `text.replace('&nbsp;', ' ')` */
  function NbspToSpace(text: string): (r: string)
    ensures !Occurs(r, Nbsp)
    ensures !Occurs(text, Nbsp) ==> r == text
  {
    NoNbspAfterReplace(text);
    ReplaceAbsent(text, Nbsp, " ");
    Replace(text, Nbsp, " ")
  }

  /** Each `&nbsp;` becomes exactly one space and the text around it goes
      through the same replacement. */
  lemma NbspBecomesSpace(a: string, b: string)
    ensures NbspToSpace(a + Nbsp + b) == NbspToSpace(a) + " " + NbspToSpace(b)
  {
    assert Nbsp[1..] == "nbsp;";
    ReplaceSplit(a, b, Nbsp, " ");
  }

  /** Applying the replacement twice is applying it once. */
  lemma NbspToSpaceIdempotent(text: string)
    ensures NbspToSpace(NbspToSpace(text)) == NbspToSpace(text)
  {
  }

  // ---------------------------------------------------------------------------
  // Image class token
  // ---------------------------------------------------------------------------

  /** The three image flags, in the order their class names are emitted. */
  const Flags: seq<string> := ["stretched", "withBorder", "withBackground"]

  function FlagRank(name: string): nat
    requires name in Flags
  {
    if name == Flags[0] then 0 else if name == Flags[1] then 1 else 2
  }

  /** The list `classes` before it is joined: the names of the truthy flags. */
  function ClassList(stretched: Value, withBorder: Value, withBackground: Value): (cs: seq<string>)
    ensures forall i :: 0 <= i < |cs| ==> cs[i] in Flags
    ensures Flags[0] in cs <==> Truthy(stretched)
    ensures Flags[1] in cs <==> Truthy(withBorder)
    ensures Flags[2] in cs <==> Truthy(withBackground)
    ensures forall i, j :: 0 <= i < j < |cs| ==> FlagRank(cs[i]) < FlagRank(cs[j])
  {
    (if Truthy(stretched) then [Flags[0]] else [])
    + (if Truthy(withBorder) then [Flags[1]] else [])
    + (if Truthy(withBackground) then [Flags[2]] else [])
  }

  /** `' '.join(classes)`: empty exactly when no flag is truthy, and otherwise
      splitting it on spaces gives back the class list. */
  function ClassToken(stretched: Value, withBorder: Value, withBackground: Value): (r: string)
    ensures r == "" <==> !Truthy(stretched) && !Truthy(withBorder) && !Truthy(withBackground)
    ensures r != "" ==> Split(r, ' ') == ClassList(stretched, withBorder, withBackground)
  {
    var cs := ClassList(stretched, withBorder, withBackground);
    JoinFlags(cs);
    Join(cs, " ")
  }

  lemma FlagNameShape(name: string)
    requires name in Flags
    ensures name != "" && ' ' !in name
  {
    assert name == Flags[0] || name == Flags[1] || name == Flags[2];
  }

  /** Flag names hold no space and are never empty, so their join is empty only
      for no names, and splits back into them. */
  lemma JoinFlags(cs: seq<string>)
    requires forall i :: 0 <= i < |cs| ==> cs[i] in Flags
    ensures Join(cs, " ") == "" <==> cs == []
    ensures cs != [] ==> Split(Join(cs, " "), ' ') == cs
  {
    if cs != [] {
      forall i | 0 <= i < |cs|
        ensures ' ' !in cs[i]
      {
        FlagNameShape(cs[i]);
      }
      SplitJoin(cs, ' ');
      FlagNameShape(cs[0]);
    }
  }

  // ---------------------------------------------------------------------------
  // Image URL unescaping
  // ---------------------------------------------------------------------------

  /** `unquote(url).replace('&amp;', '&')`: one layer of percent-encoding, then
      one layer of `&amp;`, in that order. */
  function UnescapeUrl(url: string): (r: string)
    ensures |r| <= |url|
    ensures '%' !in url && !Occurs(url, EscapedAmp) ==> r == url
  {
    ReplaceAbsent(url, EscapedAmp, "&");
    Replace(Percent.Unquote(url), EscapedAmp, "&")
  }

  /** The HTML escaping of ampersands that the second step undoes. */
  function EscapeAmp(s: string): string {
    Replace(s, "&", EscapedAmp)
  }

  lemma UnescapeAmpCons(c: char, t: string)
    requires c != '&'
    ensures Replace([c] + t, EscapedAmp, "&") == [c] + Replace(t, EscapedAmp, "&")
  {
    if |[c] + t| < |EscapedAmp| {
      assert ([c] + t)[1..] == t;
    } else {
      assert ([c] + t)[1..] == t;
    }
  }

  /** Replacing `&amp;` by `&` undoes escaping `&` as `&amp;`. */
  lemma {:induction false} UnescapeEscapeAmp(s: string)
    ensures Replace(EscapeAmp(s), EscapedAmp, "&") == s
  {
    if s != [] {
      var e := EscapeAmp(s[1..]);
      UnescapeEscapeAmp(s[1..]);
      if s[0] == '&' {
        assert s[..1] == "&";
        assert EscapeAmp(s) == EscapedAmp + e;
        assert (EscapedAmp + e)[..|EscapedAmp|] == EscapedAmp;
        assert (EscapedAmp + e)[|EscapedAmp|..] == e;
      } else {
        assert s[..1] != "&";
        assert EscapeAmp(s) == [s[0]] + e;
        UnescapeAmpCons(s[0], e);
      }
      assert [s[0]] + s[1..] == s;
    }
  }

  /** A URL that was escaped once with `&amp;` and then percent-encoded once
      comes back exactly. */
  lemma UnescapeUrlRoundTrip(s: string, safe: string)
    requires '%' !in safe
    ensures UnescapeUrl(Percent.Quote(EscapeAmp(s), safe)) == s
  {
    Percent.UnquoteQuote(EscapeAmp(s), safe);
    UnescapeEscapeAmp(s);
  }
}

=== FILE: values.dfy ===
/** The JSON-like values the filter works on: what `json.loads` produces, or a
    dict handed to the filter directly. */
module Values {

  datatype Value =
    | Null
    | Bool(b: bool)
    | Int(i: int)
    | Str(s: string)
    | Array(items: seq<Value>)
    | Object(fields: map<string, Value>)

  /** The dict handed to the template renderer. */
  type Context = map<string, Value>

  /** Python truthiness, `bool(v)`: None, False, 0 and empty containers are false. */
  predicate Truthy(v: Value) {
    match v
    case Null => false
    case Bool(b) => b
    case Int(i) => i != 0
    case Str(s) => s != ""
    case Array(xs) => xs != []
    case Object(m) => m != map[]
  }

  /** The falsy values are exactly None, False, 0, `""`, `[]` and `{}`. */
  lemma FalsyValues(v: Value)
    ensures !Truthy(v) <==> v in {Null, Bool(false), Int(0), Str(""), Array([]), Object(map[])}
  {
  }

  /** `d.get(key, default)` */
  function GetOr(d: map<string, Value>, key: string, default: Value): Value {
    if key in d then d[key] else default
  }

  /** `d.get(key)`: a missing key reads as None. */
  function Get(d: map<string, Value>, key: string): Value {
    GetOr(d, key, Null)
  }

  /** A missing key reads as None, just like a key mapped to an explicit null,
      and only a missing key falls back to the default. */
  lemma GetMissing(d: map<string, Value>, key: string, default: Value)
    ensures Get(d, key) == Null <==> key !in d || d[key] == Null
    ensures GetOr(d, key, default) == if key in d then Get(d, key) else default
  {
  }
}
